=== FILE: README.md ===
# Insurance back-office forms: a Dafny model of the submit logic

The front-end has three data-entry forms: client creation (`CreateProfileForm`),
claim registration (`RegisterSinistroForm`) and policy creation
(`CreateApoliceForm`). Each form declares a zod schema. Each submit handler
reshapes the parsed form data into a nested request body and reacts to the
response of the post. The searchable pickers give every item a composite string
key, and the handlers decode the key back to the record id. This project models
that logic as pure Dafny functions and proves what it promises.

Modules, leaf to root:

- `Wrappers` (wrappers.dfy): `Option`.
- `Text` (text.dfy): ASCII `toLowerCase`/`toUpperCase`, JavaScript `split` on a
  one-character separator and its round trips with `join`, and `n.toString()`
  for non-negative integers together with its inverse.
- `Numbers` (numbers.dfy): `Number(s)` on decimal strings, returning a finite
  value or NaN, and `parseFloat(s).toFixed(2)` on amounts with at most two
  fractional digits.
- `PickerKeys` (picker_keys.dfy): the lookup records; the keys
  `${ID}-${lower(NOME)}`, `${ID}-${lower(NUMERO)}/${lower(CLIENTE)}` and
  `${ID}-${lower(MARCA)}/${lower(MODELO)}/${lower(MATRICULA)}`; the decoding
  `Number(key.split('-')[0])`; the `find` that labels the picker button; the
  item check-marks.
- `Schema` (schema.dfy): a zod field schema as data (kind, presence, wrong-kind
  message, checks). It defines the issues zod reports for a value, the message
  the resolver records for the field (the first issue), form validity, and the parsed data with
  defaults filled in.
- `Submission` (submission.dfy): `handleSubmit`, which either blocks with the
  recorded field messages or posts one payload. It also maps a response (a status text
  or a thrown error) to a notification and follow-up effects (close the modal,
  reset the form, reload the page, navigate).
- `ProfileForm`, `SinistroForm`, `ApoliceForm`: each form's field list, schema,
  parsed data, payload, submit step, outcome and properties.

Field messages are recorded in react-hook-form's errors; the contracts speak of
what is recorded, not of what is rendered.

A form state is a total function from field to raw value. A controlled field the
user never set (select, picker, checkbox) is `Undefined`.

Behaviour of the code that the model follows, where a reader might expect otherwise:

- Picker keys are decoded by parsing the text before the first `-`, not by
  searching the candidate list. The list search (`find`) only chooses the
  label shown on the picker button.
- Not every required field says 'Campo obrigatório'. Fields declared with a
  bare `z.string()` or `.nonempty()` get zod's own message.
- The claim form's submit button is not disabled while a post is in flight.
- The client form treats any resolved post as a success and never reads the
  response status.

Other behaviour of the code worth knowing:

- The client payload takes `endereco.cidade` from the birthplace picker
  (`naturalidade`). The `cidade` picker is validated but never read.
- `email` declares its format check before `.nonempty`, so an empty e-mail
  is rejected with 'Formato de e-mail inválido'.

## Model

| member | source | states |
|---|---|---|
| `Text.Lower` | src/components/Pages/CreateProfileForm.tsx:365 | `toLowerCase` keeps the length, maps each character on its own, and leaves no upper-case letter |
| `Text.Upper` | src/components/Pages/RegisterSinistroForm.tsx:315 | `toLocaleUpperCase` keeps the length, maps each character on its own, and leaves no lower-case letter |
| `Text.LowerForgetsCase` | src/components/Pages/RegisterSinistroForm.tsx:187 | lower-casing is idempotent and gives the same result on the upper-cased string |
| `Text.UpperForgetsCase` | src/components/Pages/RegisterSinistroForm.tsx:315 | upper-casing is idempotent and gives the same result on the lower-cased string |
| `Text.CaseAgreesIffNoLetter` | src/components/Pages/RegisterSinistroForm.tsx:304-315 | upper- and lower-casing a string give the same string iff it has no ASCII letter |
| `Text.Split` | src/components/Pages/CreateProfileForm.tsx:178 | `split` always gives at least one part, the first part is a prefix of the string, and no part contains the separator |
| `Text.SplitAtFirst` | src/components/Pages/CreateProfileForm.tsx:178 | splitting `p + sep + q` with no separator in `p` gives `p` as the first part, whatever `q` holds |
| `Text.SplitJoin` | src/components/Pages/RegisterSinistroForm.tsx:105-107 | splitting undoes joining when no part contains the separator |
| `Text.JoinSplit` | src/components/Pages/RegisterSinistroForm.tsx:105-107 | joining the parts of a split gives back the original string |
| `Text.NatToString` | src/components/Pages/CreateProfileForm.tsx:298 | `ID.toString()` is a non-empty digit string with no superfluous leading zero |
| `Text.DigitsValueOfNatToString` | src/components/Pages/CreateProfileForm.tsx:298 | reading back a rendered id gives the id |
| `Text.NatToStringOfDigitsValue` | src/components/Pages/CreateProfileForm.tsx:298 | rendering the value of a canonical digit string gives the string back (the other direction of the round trip) |
| `Text.NatToStringInjective` | src/components/Pages/CreateApoliceForm.tsx:151 | distinct ids have distinct select values |
| `Numbers.Number` | src/components/Pages/CreateProfileForm.tsx:175 | `Number("")` is 0, and a non-empty digit string is its decimal value |
| `Numbers.NumberOfNatToString` | src/components/Pages/CreateProfileForm.tsx:175 | `Number(n.toString())` is `n` |
| `Numbers.ToFixed2` | src/components/Pages/CreateApoliceForm.tsx:97 | `toFixed(2)` is defined in the model exactly on amounts: one or more digits, or optional digits, a point and one or two digits ("150", "150.5", ".5"; not "150.") |
| `Numbers.ToFixed2Faithful` | src/components/Pages/CreateApoliceForm.tsx:97 | on an amount, the input reads as its hundredths over 100 (a finite number); the result has a canonical integer part and exactly two fractional digits, and `Number` reads it as that same value |
| `Numbers.ToFixed2Example` | src/components/Pages/CreateApoliceForm.tsx:97 | "150.5" becomes "150.50" |
| `Numbers.ToFixed2LeadingPoint` | src/components/Pages/CreateApoliceForm.tsx:97 | ".5" becomes "0.50" |
| `PickerKeys.CityKey` | src/components/Pages/CreateProfileForm.tsx:365 | the city item key `${ID}-${lower(NOME)}`; no contract of its own: `PickerKeys.DecodeCityKey` and `PickerKeys.CityMarkIffSelected` state its properties |
| `PickerKeys.PolicyKey` | src/components/Pages/RegisterSinistroForm.tsx:185-187 | the policy item key; no contract of its own: `PickerKeys.DecodePolicyKey` and `PickerKeys.PolicyMarkIffSelected` state its properties |
| `PickerKeys.VehicleKey` | src/components/Pages/RegisterSinistroForm.tsx:302-304 | the vehicle item key; no contract of its own: `PickerKeys.DecodeVehicleKey` and `PickerKeys.VehicleMarkIffSelected` state its properties |
| `PickerKeys.DecodeKey` | src/components/Pages/RegisterSinistroForm.tsx:105-107 | `Number(key.split('-')[0])`; no contract of its own: `PickerKeys.DecodeComposite` and `PickerKeys.DecodePrefixed` state what it returns |
| `PickerKeys.SelectRoundTrip` | src/components/Pages/CreateProfileForm.tsx:175-183 | a select value `ID.toString()` read with `Number` gives the id |
| `PickerKeys.DecodeComposite` | src/components/Pages/CreateProfileForm.tsx:178 | `Number(key.split('-')[0])` gives the id for any text after the id and its '-', including text with '-' or '/' |
| `PickerKeys.DecodePrefixed` | src/components/Pages/RegisterSinistroForm.tsx:105-107 | every key that begins with a decimal id and '-' decodes to that id |
| `PickerKeys.DecodeCityKey` | src/components/Pages/CreateProfileForm.tsx:365 | the city key decodes to the city id |
| `PickerKeys.DecodePolicyKey` | src/components/Pages/RegisterSinistroForm.tsx:185-187 | the policy key decodes to the policy id, whatever NUMERO (e.g. "AUP-…") and CLIENTE contain |
| `PickerKeys.DecodeVehicleKey` | src/components/Pages/RegisterSinistroForm.tsx:302-304 | the vehicle key decodes to the vehicle id |
| `PickerKeys.Find` | src/components/Pages/RegisterSinistroForm.tsx:164-171 | `find` returns a listed item whose key equals the value and no earlier item has that key (the first match); it returns nothing only when no item's key equals the value |
| `PickerKeys.FindSelected` | src/components/Pages/RegisterSinistroForm.tsx:164-171 | on a list with distinct ids, and keys that decode to ids, looking up the key of item k returns item k |
| `PickerKeys.CityLabel` | src/components/Pages/CreateProfileForm.tsx:346-351 | the button label is the name of the first listed city whose key is the value, and there is no label iff no listed city has that key |
| `PickerKeys.SelectedCityLabel` | src/components/Pages/RegisterSinistroForm.tsx:466-471 | after picking a city from a list with distinct ids, the lookup returns that city and the button shows its name |
| `PickerKeys.PolicyLabel` | src/components/Pages/RegisterSinistroForm.tsx:164-171 | the button label is the number of the first listed policy whose key is the value, and there is no label iff no listed policy has that key |
| `PickerKeys.SelectedPolicyLabel` | src/components/Pages/RegisterSinistroForm.tsx:164-171 | after picking a policy, the lookup returns that policy and the button shows its number |
| `PickerKeys.VehicleLabel` | src/components/Pages/RegisterSinistroForm.tsx:281-288 | the button label is the make of the first listed vehicle whose key is the value, and there is no label iff no listed vehicle has that key |
| `PickerKeys.SelectedVehicleLabel` | src/components/Pages/RegisterSinistroForm.tsx:281-288 | after picking a vehicle, the lookup returns that vehicle and the button shows its make |
| `PickerKeys.CityMarkIffSelected` | src/components/Pages/CreateProfileForm.tsx:374-377 | after picking city k, city j's check-mark is lit iff j is k (distinct ids) |
| `PickerKeys.PolicyMarkIffSelected` | src/components/Pages/RegisterSinistroForm.tsx:196-201 | after picking policy k, policy j's check-mark is lit iff j is k |
| `PickerKeys.VehicleMarkAsWritten` | src/components/Pages/RegisterSinistroForm.tsx:313-318 | the vehicle check-mark test as written: the key rebuilt with the plate upper-cased equals the field value; `PickerKeys.VehicleMarkAsWrittenSelected` and `PickerKeys.AnyLetterDarkensMark` state when it holds |
| `PickerKeys.VehicleMarkAsWrittenSelected` | src/components/Pages/RegisterSinistroForm.tsx:313-318 | as written, a selected vehicle's mark is lit iff upper- and lower-casing its plate agree |
| `PickerKeys.AnyLetterDarkensMark` | src/components/Pages/RegisterSinistroForm.tsx:302-318 | as written, a selected vehicle's mark is lit iff its plate has no letter |
| `PickerKeys.VehicleMarkAsWrittenMissesSelection` | src/components/Pages/RegisterSinistroForm.tsx:313-318 | a vehicle with plate "LD-23-45-AB" is selected (the value is its own key) but its mark is not lit |
| `PickerKeys.VehicleMarkIffSelected` | src/components/Pages/RegisterSinistroForm.tsx:302-304 | with the item's own key as the mark's comparison, exactly the selected vehicle is marked |
| `Schema.CheckIssues` | src/components/Pages/CreateProfileForm.tsx:72-75 | the checks produce no issue iff every check passes, and every issue is the message of a failing check |
| `Schema.FirstCheckIssue` | src/components/Pages/CreateProfileForm.tsx:72-75 | the first issue is the message of the first failing check in declaration order |
| `Schema.Issues` | src/components/Pages/CreateApoliceForm.tsx:41-54 | a field has no issue iff the value (or the default) is present when required, is of the declared kind, and passes every check |
| `Schema.FirstIssue` | src/components/Pages/CreateApoliceForm.tsx:41-54 | the message recorded for the field is absent iff the field accepts the value |
| `Schema.ErrorList` | src/components/Pages/CreateProfileForm.tsx:51-80 | the list of recorded field messages is empty iff every field of the form is accepted |
| `Schema.ErrorListSound` | src/components/Pages/CreateProfileForm.tsx:51-80 | each entry of the list is a listed field together with the first issue recorded for it |
| `Schema.ErrorListComplete` | src/components/Pages/CreateProfileForm.tsx:51-80 | every rejected field has an entry in the list |
| `Submission.Submit` | src/components/Pages/CreateProfileForm.tsx:225 | a post happens iff the form is valid; otherwise at least one message is recorded, each the first issue of its field |
| `Submission.StatusOutcome` | src/components/Pages/RegisterSinistroForm.tsx:115-126 | success iff the status is "200", and then only navigation to the target; otherwise an error toast with the status text, or the fixed text after a throw, and no effect |
| `Submission.NavigatesIffOk` | src/components/Pages/CreateApoliceForm.tsx:101-112 | the outcome navigates iff the status was "200" |
| `ProfileForm.Rule` | src/components/Pages/CreateProfileForm.tsx:51-80 | `createProfileSchema` field by field; no contract of its own: `ProfileForm.FilledFieldRule`, `ProfileForm.EmailRule`, `ProfileForm.PhoneRule` and `ProfileForm.ParsedDataFaithful` state what it accepts and rejects |
| `ProfileForm.Transform` | src/components/Pages/CreateProfileForm.tsx:168-206 | the client payload; `endereco.cidade` is always the same number as `naturalidade`; `ProfileForm.TextCopied`, `ProfileForm.IdsDecoded` and `ProfileForm.TransformIgnoresCidade` state the rest |
| `ProfileForm.SubmitProfile` | src/components/Pages/CreateProfileForm.tsx:167-207 | a client payload is posted iff the form is valid, built from the parsed data |
| `ProfileForm.ProfileOutcome` | src/components/Pages/CreateProfileForm.tsx:209-218 | any response closes the modal, resets the form and shows 'Cliente criado com sucesso'; a throw shows 'Não foi possível criar o cliente' and keeps the form |
| `ProfileForm.FilledFieldRule` | src/components/Pages/CreateProfileForm.tsx:52-79 | each field declared non-empty rejects "" with exactly 'Campo obrigatório' and accepts a string iff it is non-empty |
| `ProfileForm.EmailRule` | src/components/Pages/CreateProfileForm.tsx:72-75 | `email` accepts exactly addresses; an empty one is rejected with 'Formato de e-mail inválido' |
| `ProfileForm.PhoneRule` | src/components/Pages/CreateProfileForm.tsx:70-71 | the phones are rejected with 'Número negativo' iff negative, and with zod's wrong-kind message for NaN |
| `ProfileForm.EmptyNomeBlocks` | src/components/Pages/CreateProfileForm.tsx:52 | an empty `nome` blocks the submit and records 'Campo obrigatório' for `nome` |
| `ProfileForm.NegativePhoneBlocks` | src/components/Pages/CreateProfileForm.tsx:70 | a negative `telefone` blocks the submit and records 'Número negativo' for it |
| `ProfileForm.ParsedPersonFaithful` | src/components/Pages/CreateProfileForm.tsx:52-62 | on a valid form the personal fields reach the handler as typed, `sexo` defaults to 'M' and `nib` is passed when present |
| `ProfileForm.ParsedDocumentsFaithful` | src/components/Pages/CreateProfileForm.tsx:63-69 | on a valid form the document fields reach the handler as typed |
| `ProfileForm.ParsedContactsFaithful` | src/components/Pages/CreateProfileForm.tsx:70-79 | on a valid form the contact and address fields reach the handler as typed |
| `ProfileForm.ParsedDataFaithful` | src/components/Pages/CreateProfileForm.tsx:51-80 | on a valid form every field reaches the handler as typed, with the default for `sexo` and the optional fields passed when present |
| `ProfileForm.TextCopied` | src/components/Pages/CreateProfileForm.tsx:168-206 | on a valid form, the text fields and phones land verbatim in their nested payload positions; `nib` and `caixa_postal` are sent when typed and absent otherwise; `sexo` is sent as typed or 'M' when unset; `estado_civil`, `profissao`, `renumeracao` and `tipo` are `Number` of their text, and `naturalidade` and `endereco.cidade` the decoded birthplace key |
| `ProfileForm.IdsDecoded` | src/components/Pages/CreateProfileForm.tsx:175-202 | the birthplace key decodes to the city id for both `naturalidade` and `endereco.cidade`; civil status, profession and document type decode to their ids |
| `ProfileForm.CidadeNeverRead` | src/components/Pages/CreateProfileForm.tsx:201-205 | two valid states that differ only in `cidade` post the same payload |
| `ProfileForm.TransformIgnoresCidade` | src/components/Pages/CreateProfileForm.tsx:168-206 | the client payload does not depend on the parsed `cidade` |
| `SinistroForm.Rule` | src/components/Pages/RegisterSinistroForm.tsx:56-70 | `registerSinistroSchema` field by field; no contract of its own: `SinistroForm.RequiredTextRules` and `SinistroForm.ParsedDataFaithful` state what it accepts and rejects |
| `SinistroForm.InjuryCode` | src/components/Pages/RegisterSinistroForm.tsx:109 | the injury code is 0 or 1, and 1 exactly when the box is ticked |
| `SinistroForm.DamageCode` | src/components/Pages/RegisterSinistroForm.tsx:110-111 | a damage code is 1 or 2, and 1 exactly when the box is ticked |
| `SinistroForm.Transform` | src/components/Pages/RegisterSinistroForm.tsx:102-113 | the claim payload; the injury code is 0 or 1 and each damage code is 1 or 2; `SinistroForm.IdsDecoded`, `SinistroForm.FlagCodes` and `SinistroForm.PassThrough` state the rest |
| `SinistroForm.SubmitSinistro` | src/components/Pages/RegisterSinistroForm.tsx:101-113 | a claim payload is posted iff the form is valid, built from the parsed data |
| `SinistroForm.SubmitEnabled` | src/components/Pages/RegisterSinistroForm.tsx:526-527 | the button is enabled iff a submit would post, whether or not a post is in flight |
| `SinistroForm.SinistroOutcome` | src/components/Pages/RegisterSinistroForm.tsx:115-126 | status "200" shows 'Sinistro registrado com sucesso' and goes to /sinistros; another status shows that status; a throw shows 'Não foi possível Registar o sinistro' |
| `SinistroForm.RequiredTextRules` | src/components/Pages/RegisterSinistroForm.tsx:58-65 | `cidade` rejects "" with 'Campo obrigatório'; `descricao`, `rua`, `morada` with zod's message; each accepts exactly non-empty text |
| `SinistroForm.ParsedDataFaithful` | src/components/Pages/RegisterSinistroForm.tsx:56-70 | on a valid form the strings reach the handler as typed and each flag is true iff ticked |
| `SinistroForm.IdsDecoded` | src/components/Pages/RegisterSinistroForm.tsx:105-108 | the policy, city and vehicle keys and the client select value decode to their ids |
| `SinistroForm.FlagCodes` | src/components/Pages/RegisterSinistroForm.tsx:109-111 | `ferimentos` is 1 if ticked and 0 otherwise; each damage flag is 1 if ticked and 2 otherwise; an unset box counts as unticked |
| `SinistroForm.PassThrough` | src/components/Pages/RegisterSinistroForm.tsx:102-113 | `data`, `descricao`, `rua`, `morada` and both observations reach the payload as typed |
| `ApoliceForm.Rule` | src/components/Pages/CreateApoliceForm.tsx:41-54 | `createApoliceSchema` field by field; no contract of its own: `ApoliceForm.AmountAndDiscountRules` and `ApoliceForm.ParsedDataFaithful` state what it accepts and rejects |
| `ApoliceForm.NumeroDefault` | src/components/Pages/CreateApoliceForm.tsx:77 | the generated number begins with "AUP-", followed by one character per base-36 digit after the seventh; that suffix has no lower-case letter and equals those digits up to case (none when the rendering has at most seven characters) |
| `ApoliceForm.InitialState` | src/components/Pages/CreateApoliceForm.tsx:74-79 | the form as it opens: `numero` holds the generated number, `desconto` the input's default 0 (line 306), the text inputs are empty and the selects unset; no contract of its own: `ApoliceForm.InitialStateBlocked` and `ApoliceForm.CarriedThrough` state its properties |
| `ApoliceForm.Transform` | src/components/Pages/CreateApoliceForm.tsx:90-99 | the policy payload; `valor` is sent exactly when the input is an amount; `ApoliceForm.IdsDecoded`, `ApoliceForm.CarriedThrough` and `ApoliceForm.AmountFixed` state the rest |
| `ApoliceForm.SubmitApolice` | src/components/Pages/CreateApoliceForm.tsx:89-99 | a policy payload is posted iff the form is valid, built from the parsed data |
| `ApoliceForm.SubmitEnabled` | src/components/Pages/CreateApoliceForm.tsx:326 | the button is enabled iff a submit would post and no post is in flight |
| `ApoliceForm.ApoliceOutcome` | src/components/Pages/CreateApoliceForm.tsx:101-112 | status "200" shows 'Apólice criada com sucesso' and goes to /apolices; another status shows that status; a throw shows 'Não foi possível Registar a apólice' |
| `ApoliceForm.AmountAndDiscountRules` | src/components/Pages/CreateApoliceForm.tsx:47-53 | an empty `valor` is rejected with 'O valor é obrigatório'; a NaN `desconto` with 'O desconto deve ser um número', a missing one with 'Campo obrigatório'; a finite one is accepted |
| `ApoliceForm.ParsedDataFaithful` | src/components/Pages/CreateApoliceForm.tsx:41-54 | on a valid form every field reaches the handler as typed |
| `ApoliceForm.IdsDecoded` | src/components/Pages/CreateApoliceForm.tsx:93-96 | `cliente`, `veiculo`, `tipo` and `tipologia` decode from their `ID.toString()` values to the ids |
| `ApoliceForm.CarriedThrough` | src/components/Pages/CreateApoliceForm.tsx:90-99 | `numero` is the number generated at opening and begins with "AUP-"; the dates and the discount are sent as entered |
| `ApoliceForm.AmountFixed` | src/components/Pages/CreateApoliceForm.tsx:97 | an amount is sent with exactly two fractional digits and its value, hundredths over 100, which is also the value of the input; "150.5" is sent as "150.50" and ".5" as "0.50" |
| `ApoliceForm.AmountRendered` | src/components/Pages/CreateApoliceForm.tsx:97 | for every amount, `toFixed(2)` gives a string with exactly two fractional digits worth the amount's value, hundredths over 100; "150.5" gives "150.50" and ".5" gives "0.50" |
| `ApoliceForm.InitialStateBlocked` | src/components/Pages/CreateApoliceForm.tsx:74-79 | the form as it opens cannot post: 'Campo obrigatório' is recorded for `cliente` and the button is disabled |

## Left out

- Rendering and layout are not modelled: JSX, styling, `Modal`, `Summary`, `Occurrences`, `_app.tsx`, `_document.tsx`. They are presentational.
- Page data loading (`getServerSideProps`, `data['']` unwrapping) and the session-cookie redirect are not modelled. They are network and framework plumbing; the lookup lists are inputs here.
- Posts, toasts and router calls are not performed. The model returns them as an `Outcome` value.
- A rejection of `router.push` after the success toast would reach the same `catch`. This is not modelled, because routing is outside the model.
- `isSubmitting` is set and cleared by react-hook-form asynchronously. The model takes it as an input flag.
- The client form's button only reads `isSubmitting` (`disabled={isSubmitting}`). It has no logic beyond that flag and is not modelled separately.
- The form state is an input, not derived from DOM events. The exception is the policy form's opening state (`ApoliceForm.InitialState`).
- The picker library may normalise the value it passes to `onSelect`. The model takes the item's value unchanged, since that library is not part of this model.
- Where field messages appear on screen is not modelled. The resolver records them in react-hook-form's errors. Only the client form's `naturalidade` and `cidade` pickers render theirs (`<FormMessage />` at CreateProfileForm.tsx:387 and :611). Every other field's message, and every message of the claim and policy forms, is recorded but not displayed.
- Zod's exact e-mail regular expression is not modelled. `Schema.IsEmail` only requires one '@' with text on both sides.
- Zod's built-in message texts ("Required", "Expected number, received nan", …) are represented as `ZodDefault`, without their text.
- Numbers are exact reals. IEEE-754 doubles, their rounding and their range are not modelled.
- Numbers.Number: reads "", digit strings, and decimal literals with an optional leading '-'. Any other string is NaN in the model, although JavaScript also accepts surrounding whitespace, '+', exponents, hexadecimal and "Infinity".
- Numbers.ToFixed2: is stated only on non-negative amounts with at most two fractional digits, in the forms a number input yields ("150", "150.5", ".5"). It returns `None` for any other string: more fractional digits, a sign or an exponent. There `parseFloat(...).toFixed(2)` depends on floating-point parsing and rounding.
- `Math.random()` is not modelled. Its base-36 rendering is a parameter of `ApoliceForm.NumeroDefault`.
- Case mapping covers ASCII letters only. Unicode `toLowerCase` and `toLocaleUpperCase` are not modelled.
- Record ids are non-negative integers. A negative id would decode differently, because its '-' splits the key.
- The browser's constraint validation of the inputs is not modelled: the `min` attributes on the policy form's dates and amount (CreateApoliceForm.tsx:275, :282, :294) and `step={0.1}` on the amount and on `renumeracao` (CreateApoliceForm.tsx:295, CreateProfileForm.tsx:446). The code itself does not check them.
- ApoliceForm.AmountFixed: treats every amount with at most two fractional digits as posted. With `step={0.1}` the browser would refuse to submit a value such as "150.55", so that case is reachable only when the browser's constraint validation is bypassed.
- The checkbox "indeterminate" state is not modelled; the boxes are plain booleans.
- The pickers' placeholder text is not modelled. When the value is empty the button shows 'Selecione a cidade', 'Selecione o apólice' or 'Selecione o veículo' (CreateProfileForm.tsx:346-352, RegisterSinistroForm.tsx:164-172, :281-289, :466-472). `PickerKeys.CityLabel`, `PolicyLabel` and `VehicleLabel` model only the `find(...)?.X` branch taken once a value is set. That text is static rendering.
- The readers of parsed values (`TextOf`, `NumberOf`, `FlagOf`) have fallbacks for values of the wrong kind. A valid form never reaches these fallbacks, as the `ParsedDataFaithful` lemmas show.

## Findings

| source | as written | input that shows it | evidently intended | confidence | as-written member | corrected member |
|---|---|---|---|---|---|---|
| src/components/Pages/RegisterSinistroForm.tsx:313-315 | the vehicle check-mark rebuilds the key with `MATRICULA.toLocaleUpperCase()`, while the item value (line 304) uses `toLowerCase()` | vehicle id 7, "Toyota", "Hilux", plate "LD-23-45-AB", selected: its key has "ld-23-45-ab", the mark compares against "LD-23-45-AB" and stays dark | the mark of the selected vehicle is lit, as in the city and policy pickers | not executed; high | `PickerKeys.VehicleMarkAsWrittenMissesSelection` | `PickerKeys.VehicleMarkIffSelected` |

=== FILE: apolice_form.dfy ===
/**
 * The policy-creation form: `createApoliceSchema`, the generated policy number,
 * the `apolices` payload `handleRegisterApolice` posts, the submit button and
 * what follows the post.
 */
module ApoliceForm {
  import opened Wrappers
  import opened Text
  import opened Numbers
  import opened Schema
  import opened Submission

  datatype Field = Cliente | Veiculo | Tipo | Numero | Tipologia | Valor | DataInicio | DataFim | Desconto

  /** The fields in declaration order. */
  const Fields: seq<Field> := [Cliente, Veiculo, Tipo, Numero, Tipologia, Valor, DataInicio, DataFim, Desconto]

  const Obligatory := Custom("Campo obrigatório")
  const AmountRequired := Custom("O valor é obrigatório")
  const DiscountNotNumber := Custom("O desconto deve ser um número")

  /** `createApoliceSchema`, field by field. */
  function Rule(n: Field): FieldSchema {
    match n
    case Cliente | Veiculo | Tipo | Tipologia | DataInicio | DataFim =>
      FieldSchema(StringKind, Required(Obligatory), ZodDefault, [])
    case Numero => FieldSchema(StringKind, Required(ZodDefault), ZodDefault, [])
    case Valor => FieldSchema(StringKind, Required(ZodDefault), ZodDefault, [NonEmpty(AmountRequired)])
    case Desconto => FieldSchema(NumberKind, Required(Obligatory), DiscountNotNumber, [])
  }

  /**
   * The default policy number, fixed when the form is created:
   * `AUP-${Math.random().toString(36).substring(7).toUpperCase()}`, where
   * `base36` is the base-36 rendering of the random number. After the prefix
   * come the digits from the eighth on, upper-cased: the same digits up to
   * case, with no lower-case letter left.
   */
  function NumeroDefault(base36: string): (r: string)
    ensures |r| >= 4 && r[..4] == "AUP-"
    ensures |r| == 4 + (if |base36| >= 7 then |base36| - 7 else 0)
    ensures forall i :: 4 <= i < |r| ==> !('a' <= r[i] <= 'z')
    ensures Lower(r[4..]) == Lower(if |base36| >= 7 then base36[7..] else "")
  {
    var digits := if |base36| >= 7 then base36[7..] else "";
    LowerForgetsCase(digits);
    assert ("AUP-" + Upper(digits))[4..] == Upper(digits);
    "AUP-" + Upper(digits)
  }

  /**
   * The state when the form opens: the generated number, a discount of 0 from
   * the input's default, empty text inputs, and no selection in the selects.
   */
  function InitialState(base36: string): Field -> Value {
    (n: Field) => match n
         case Numero => Str(NumeroDefault(base36))
         case Desconto => Num(Finite(0.0))
         case Valor | DataInicio | DataFim => Str("")
         case Cliente | Veiculo | Tipo | Tipologia => Undefined
  }

  /** `CreateApoliceData`: the parsed form data. */
  datatype ApoliceData = ApoliceData(
    cliente: string, veiculo: string, tipo: string, numero: string, tipologia: string,
    valor: string, dataInicio: string, dataFim: string, desconto: real)

  function DataOf(p: Field -> Value): ApoliceData {
    ApoliceData(
      TextOf(p(Cliente)), TextOf(p(Veiculo)), TextOf(p(Tipo)), TextOf(p(Numero)), TextOf(p(Tipologia)),
      TextOf(p(Valor)), TextOf(p(DataInicio)), TextOf(p(DataFim)), NumberOf(p(Desconto)))
  }

  /**
   * The request body, `{ apolices: { ...data, <overrides> } }`. `valor` is
   * `None` where the model does not follow floating-point `toFixed(2)`.
   */
  datatype ApoliceRecord = ApoliceRecord(
    cliente: JsNum, veiculo: JsNum, tipo: JsNum, numero: string, tipologia: JsNum,
    valor: Option<string>, dataInicio: string, dataFim: string, desconto: real)
  datatype ApolicePayload = ApolicePayload(apolices: ApoliceRecord)

  function Transform(d: ApoliceData): (r: ApolicePayload)
    ensures r.apolices.valor.Some? <==> IsAmount(d.valor)
  {
    ApolicePayload(ApoliceRecord(
      Number(d.cliente), Number(d.veiculo), Number(d.tipo), d.numero, Number(d.tipologia),
      ToFixed2(d.valor), d.dataInicio, d.dataFim, d.desconto))
  }

  function ParsedData(st: Field -> Value): ApoliceData {
    DataOf(ParsedState(Rule, st))
  }

  /** Pressing "Guardar": the field messages recorded, or the one payload posted. */
  function SubmitApolice(st: Field -> Value): (r: Step<Field, ApolicePayload>)
    ensures r.Post? <==> IsValid(Fields, Rule, st)
    ensures r.Post? ==> r.payload == Transform(ParsedData(st))
  {
    Submit(Fields, Rule, st, p => Transform(DataOf(p)))
  }

  /** `disabled={!isValid || isSubmitting}`: enabled iff valid and no post in flight. */
  function SubmitEnabled(st: Field -> Value, submitting: bool): (r: bool)
    ensures r <==> SubmitApolice(st).Post? && !submitting
  {
    !(!IsValid(Fields, Rule, st) || submitting)
  }

  /**
   * After the post: status "200" shows the success message and goes to
   * `/apolices`; any other status is shown as the error text; a thrown error
   * shows 'Não foi possível Registar a apólice'.
   */
  function ApoliceOutcome(r: Response): (o: Outcome)
    ensures r == Responded("200") ==> o == Outcome(SuccessToast("Apólice criada com sucesso"), [Navigate("/apolices")])
    ensures r.Responded? && r.status != "200" ==> o == Outcome(ErrorToast(r.status), []) && !Navigates(o)
    ensures r.Threw? ==> o == Outcome(ErrorToast("Não foi possível Registar a apólice"), []) && !Navigates(o)
  {
    StatusOutcome("Apólice criada com sucesso", "/apolices", "Não foi possível Registar a apólice", r)
  }

  // ---------------------------------------------------------------------------
  // Properties
  // ---------------------------------------------------------------------------

  lemma ListedField(n: Field)
    ensures n in Fields
  {
    match n
    case Cliente => assert Fields[0] == n;
    case Veiculo => assert Fields[1] == n;
    case Tipo => assert Fields[2] == n;
    case Numero => assert Fields[3] == n;
    case Tipologia => assert Fields[4] == n;
    case Valor => assert Fields[5] == n;
    case DataInicio => assert Fields[6] == n;
    case DataFim => assert Fields[7] == n;
    case Desconto => assert Fields[8] == n;
  }

  /** On a valid form every field is accepted by its rule (`Schema.ValidAccepts` on this form's fields). */
  lemma FieldAccepted(st: Field -> Value, n: Field)
    requires IsValid(Fields, Rule, st)
    ensures Accepts(Rule(n), st(n))
  {
    ListedField(n);
    ValidAccepts(Fields, Rule, st, n);
  }

  /** A required text field reaches the handler as typed (`Schema.ValidText` on this form's fields). */
  lemma FieldText(st: Field -> Value, n: Field)
    requires IsValid(Fields, Rule, st)
    requires Rule(n).kind == StringKind
    ensures st(n) == Str(TextOf(ParsedState(Rule, st)(n)))
  {
    ListedField(n);
    ValidText(Fields, Rule, st, n);
  }

  /**
   * An empty `valor` is rejected with 'O valor é obrigatório'; a `desconto`
   * that is not a number with 'O desconto deve ser um número', a missing one
   * with 'Campo obrigatório'; any finite discount is accepted.
   */
  lemma AmountAndDiscountRules(x: real)
    ensures FirstIssue(Rule(Valor), Str("")) == Some(AmountRequired)
    ensures FirstIssue(Rule(Desconto), Num(NaN)) == Some(DiscountNotNumber)
    ensures FirstIssue(Rule(Desconto), Undefined) == Some(Obligatory)
    ensures Accepts(Rule(Desconto), Num(Finite(x)))
  {
    FirstCheckIssue(Rule(Valor).checks, Str(""), 0);
  }

  /** On a valid form the handler receives every field as typed. */
  lemma ParsedDataFaithful(st: Field -> Value)
    requires IsValid(Fields, Rule, st)
    ensures var d := ParsedData(st);
      && st(Cliente) == Str(d.cliente) && st(Veiculo) == Str(d.veiculo) && st(Tipo) == Str(d.tipo)
      && st(Numero) == Str(d.numero) && st(Tipologia) == Str(d.tipologia) && st(Valor) == Str(d.valor)
      && st(DataInicio) == Str(d.dataInicio) && st(DataFim) == Str(d.dataFim)
      && st(Desconto) == Num(Finite(d.desconto))
  {
    FieldText(st, Cliente); FieldText(st, Veiculo); FieldText(st, Tipo); FieldText(st, Numero);
    FieldText(st, Tipologia); FieldText(st, Valor); FieldText(st, DataInicio); FieldText(st, DataFim);
    FieldAccepted(st, Desconto);
  }

  /** The four selects send the ids whose `ID.toString()` they hold. */
  lemma IdsDecoded(st: Field -> Value, client: nat, vehicle: nat, kind: nat, typology: nat)
    requires IsValid(Fields, Rule, st)
    requires st(Cliente) == Str(NatToString(client)) && st(Veiculo) == Str(NatToString(vehicle))
    requires st(Tipo) == Str(NatToString(kind)) && st(Tipologia) == Str(NatToString(typology))
    ensures SubmitApolice(st).Post?
    ensures var r := SubmitApolice(st).payload.apolices;
      && r.cliente == Finite(client as real) && r.veiculo == Finite(vehicle as real)
      && r.tipo == Finite(kind as real) && r.tipologia == Finite(typology as real)
  {
    ParsedDataFaithful(st);
    NumberOfNatToString(client);
    NumberOfNatToString(vehicle);
    NumberOfNatToString(kind);
    NumberOfNatToString(typology);
  }

  /**
   * `numero`, the dates and the discount are sent as entered; the number is
   * the one generated when the form opened, so it begins with "AUP-".
   */
  lemma CarriedThrough(st: Field -> Value, base36: string)
    requires IsValid(Fields, Rule, st)
    requires st(Numero) == InitialState(base36)(Numero)
    ensures SubmitApolice(st).Post?
    ensures var r := SubmitApolice(st).payload.apolices;
      && r.numero == NumeroDefault(base36) && r.numero[..4] == "AUP-"
      && st(DataInicio) == Str(r.dataInicio) && st(DataFim) == Str(r.dataFim)
      && st(Desconto) == Num(Finite(r.desconto))
  {
    ParsedDataFaithful(st);
  }

  /**
   * `v` is `s` written with exactly two fractional digits, worth the same
   * number; "150.5" is written "150.50" and ".5" "0.50".
   */
  predicate FixedAmountOf(s: string, v: Option<string>) {
    && IsAmount(s) && v.Some? && IsFixed2(v.value)
    && Number(v.value) == Finite(Cents(s) as real / 100.0) == Number(s)
    && (s == "150.5" ==> v == Some("150.50"))
    && (s == ".5" ==> v == Some("0.50"))
  }

  /**
   * An amount with at most two fractional digits is sent as the same number
   * written with exactly two; "150.5" is sent as "150.50".
   */
  lemma AmountFixed(st: Field -> Value)
    requires IsValid(Fields, Rule, st)
    requires st(Valor).Str? && IsAmount(st(Valor).s)
    ensures SubmitApolice(st).Post?
    ensures FixedAmountOf(st(Valor).s, SubmitApolice(st).payload.apolices.valor)
  {
    ValorSent(st);
    AmountRendered(st(Valor).s);
  }

  /** `toFixed(2)` of a typed amount. */
  lemma AmountRendered(s: string)
    requires IsAmount(s)
    ensures FixedAmountOf(s, ToFixed2(s))
  {
    ToFixed2Faithful(s);
    if s == "150.5" {
      ToFixed2Example();
    }
    if s == ".5" {
      ToFixed2LeadingPoint();
    }
  }

  /** On a valid form, the amount sent is `toFixed(2)` of the text typed in. */
  lemma ValorSent(st: Field -> Value)
    requires IsValid(Fields, Rule, st)
    ensures SubmitApolice(st).Post?
    ensures st(Valor).Str? && SubmitApolice(st).payload.apolices.valor == ToFixed2(st(Valor).s)
  {
    ParsedDataFaithful(st);
  }

  /** The form as it opens cannot be submitted: no client is chosen yet. */
  lemma InitialStateBlocked(base36: string)
    ensures SubmitApolice(InitialState(base36)).Blocked?
    ensures (Cliente, Obligatory) in SubmitApolice(InitialState(base36)).errors
    ensures !SubmitEnabled(InitialState(base36), false)
  {
    var st := InitialState(base36);
    assert Fields[0] == Cliente;
    assert !Accepts(Rule(Cliente), st(Cliente));
    ErrorListComplete(Fields, Rule, st, 0);
    ErrorListSound(Fields, Rule, st);
    var e :| e in ErrorList(Fields, Rule, st) && e.0 == Cliente;
  }
}

=== FILE: numbers.dfy ===
/**
 * The numeric conversions the submit handlers apply to form strings:
 * JavaScript's `Number(s)` on decimal strings, and `parseFloat(s).toFixed(2)`
 * on amounts with at most two fractional digits. Numbers are exact reals here;
 * IEEE-754 rounding is not modelled.
 */
module Numbers {
  import opened Wrappers
  import opened Text

  /** A JavaScript number as far as the forms use one: a finite value or NaN. */
  datatype JsNum = Finite(value: real) | NaN

  function Pow10(k: nat): (r: nat)
    ensures r >= 1
  {
    if k == 0 then 1 else 10 * Pow10(k - 1)
  }

  /**
   * An unsigned decimal literal: digits, optionally followed by a point and
   * more digits, with at least one digit in all ("5", "5.", ".5", "5.25").
   */
  predicate IsUnsignedDecimal(s: string) {
    var parts := Split(s, '.');
    (|parts| == 1 && |s| >= 1 && AllDigits(s))
    || (|parts| == 2 && AllDigits(parts[0]) && AllDigits(parts[1]) && |parts[0]| + |parts[1]| >= 1)
  }

  function UnsignedValue(s: string): (v: real)
    requires IsUnsignedDecimal(s)
    ensures v >= 0.0
  {
    var parts := Split(s, '.');
    if |parts| == 1 then DigitsValue(s) as real
    else DigitsValue(parts[0]) as real + DigitsValue(parts[1]) as real / Pow10(|parts[1]|) as real
  }

  /**
   * `Number(s)` on the strings the forms produce: `""` is 0, an optionally
   * negated decimal literal is its value, anything else is NaN.
   */
  function Number(s: string): (r: JsNum)
    ensures s == "" ==> r == Finite(0.0)
    ensures |s| >= 1 && AllDigits(s) ==> r == Finite(DigitsValue(s) as real)
  {
    if |s| >= 1 && AllDigits(s) then
      SplitWithoutSeparator(s, '.');
      assert s[0] != '-';
      Finite(UnsignedValue(s))
    else if IsUnsignedDecimal(s) then Finite(UnsignedValue(s))
    else if |s| >= 1 && s[0] == '-' && IsUnsignedDecimal(s[1..]) then Finite(-UnsignedValue(s[1..]))
    else if s == "" then Finite(0.0)
    else NaN
  }

  /** `Number(n.toString())` is `n`: a rendered id reads back as itself. */
  lemma NumberOfNatToString(n: nat)
    ensures Number(NatToString(n)) == Finite(n as real)
  {
    DigitsValueOfNatToString(n);
  }

  // ---------------------------------------------------------------------------
  // parseFloat(s).toFixed(2) for amounts with at most two fractional digits
  // ---------------------------------------------------------------------------

  /**
   * A non-negative amount as a number input yields it, with at most two
   * fractional digits: digits ("150"), or digits, a point and one or two
   * digits ("150.5"), where the integer digits may be absent (".5").
   */
  predicate IsAmount(s: string) {
    var parts := Split(s, '.');
    || (|parts| == 1 && |s| >= 1 && AllDigits(s))
    || (|parts| == 2 && AllDigits(parts[0]) && AllDigits(parts[1]) && 1 <= |parts[1]| <= 2)
  }

  /** A string with exactly two fractional digits after a canonical integer part. */
  predicate IsFixed2(s: string) {
    var parts := Split(s, '.');
    |parts| == 2 && IsCanonical(parts[0]) && |parts[1]| == 2 && AllDigits(parts[1])
  }

  /** The amount in hundredths. */
  function Cents(s: string): nat
    requires IsAmount(s)
  {
    var parts := Split(s, '.');
    var frac := if |parts| == 1 then "" else parts[1];
    DigitsValue(parts[0]) * 100 + DigitsValue(frac) * Pow10(2 - |frac|)
  }

  /** Renders a number of hundredths as `<integer>.<two digits>`. */
  function RenderCents(c: nat): string {
    NatToString(c / 100) + "." + [DigitChar(c % 100 / 10), DigitChar(c % 10)]
  }

  /**
   * `parseFloat(s).toFixed(2)`, defined on amounts; `None` for any other
   * string, whose result depends on floating-point parsing and rounding.
   */
  function ToFixed2(s: string): (r: Option<string>)
    ensures r.Some? <==> IsAmount(s)
  {
    if IsAmount(s) then Some(RenderCents(Cents(s))) else None
  }

  lemma SplitRendered(c: nat)
    ensures Split(RenderCents(c), '.') == [NatToString(c / 100), [DigitChar(c % 100 / 10), DigitChar(c % 10)]]
  {
    var whole := NatToString(c / 100);
    var frac := [DigitChar(c % 100 / 10), DigitChar(c % 10)];
    SplitAtFirst(whole, '.', frac);
    SplitWithoutSeparator(frac, '.');
  }

  lemma RenderedValue(c: nat)
    ensures IsUnsignedDecimal(RenderCents(c))
    ensures UnsignedValue(RenderCents(c)) == c as real / 100.0
  {
    var r := RenderCents(c);
    SplitRendered(c);
    var frac := [DigitChar(c % 100 / 10), DigitChar(c % 10)];
    DigitsValueOfNatToString(c / 100);
    assert frac[..1] == [DigitChar(c % 100 / 10)];
    assert frac[..1][..0] == [];
    assert DigitsValue(frac[..1]) == c % 100 / 10;
    assert DigitsValue(frac) == c % 100;
    assert Pow10(2) == 100;
    assert c == (c / 100) * 100 + c % 100;
  }

  lemma AmountValue(s: string)
    requires IsAmount(s)
    ensures IsUnsignedDecimal(s)
    ensures UnsignedValue(s) == Cents(s) as real / 100.0
  {
    var parts := Split(s, '.');
    var frac := if |parts| == 1 then "" else parts[1];
    if |parts| == 1 {
      JoinSplit(s, '.');
    } else {
      var whole := DigitsValue(parts[0]) as real;
      var d := DigitsValue(frac) as real;
      var p := Pow10(|frac|) as real;
      var q := Pow10(2 - |frac|) as real;
      assert p * q == 100.0 by {
        if |frac| == 0 {
        } else if |frac| == 1 {
          assert Pow10(1) == 10;
        } else {
          assert Pow10(2) == 100;
        }
      }
      assert UnsignedValue(s) == whole + d / p;
      assert Cents(s) as real == whole * 100.0 + d * q;
      assert d / p == d * q / 100.0;
    }
  }

  /**
   * On an amount, `toFixed(2)` writes the same number with exactly two
   * fractional digits; for instance "150.5" becomes "150.50".
   */
  lemma {:induction false} ToFixed2Faithful(s: string)
    requires IsAmount(s)
    ensures ToFixed2(s).Some?
    ensures IsFixed2(ToFixed2(s).value)
    ensures Number(s) == Finite(Cents(s) as real / 100.0)
    ensures Number(ToFixed2(s).value) == Number(s)
  {
    var c := Cents(s);
    SplitRendered(c);
    RenderedValue(c);
    AmountValue(s);
  }

  lemma CentsExample()
    ensures IsAmount("150.5") && Cents("150.5") == 15050
  {
    var s := "150.5";
    assert s == "150" + ['.'] + "5";
    SplitAtFirst("150", '.', "5");
    SplitWithoutSeparator("5", '.');
    assert Split(s, '.') == ["150", "5"];
    assert DigitsValue("150") == 150 by {
      assert "150"[..2] == "15" && "15"[..1] == "1" && "1"[..0] == "";
    }
    assert DigitsValue("5") == 5 by {
      assert "5"[..0] == "";
    }
    assert Pow10(1) == 10;
  }

  lemma RenderExample()
    ensures RenderCents(15050) == "150.50"
  {
    assert NatToString(150) == "150" by {
      assert NatToString(1) == "1";
      assert NatToString(15) == NatToString(1) + "5";
      assert NatToString(150) == NatToString(15) + "0";
    }
    assert [DigitChar(5), DigitChar(0)] == "50";
  }

  /** Without integer digits the amount still gets a leading zero: ".5" becomes "0.50". */
  lemma ToFixed2LeadingPoint()
    ensures ToFixed2(".5") == Some("0.50")
  {
    var s := ".5";
    assert s == "" + ['.'] + "5";
    SplitAtFirst("", '.', "5");
    SplitWithoutSeparator("5", '.');
    assert Split(s, '.') == ["", "5"];
    assert DigitsValue("5") == 5 by {
      assert "5"[..0] == "";
    }
    assert Pow10(1) == 10;
    assert IsAmount(s) && Cents(s) == 50;
    assert NatToString(0) == "0";
    assert 50 / 100 == 0 && 50 % 100 / 10 == 5 && 50 % 10 == 0;
    assert [DigitChar(5), DigitChar(0)] == "50";
    assert RenderCents(50) == "0" + "." + "50";
    assert "0" + "." + "50" == "0.50";
    assert RenderCents(Cents(s)) == "0.50";
  }

  /** The worked example of the policy form: "150.5" is sent as "150.50". */
  lemma ToFixed2Example()
    ensures ToFixed2("150.5") == Some("150.50")
  {
    CentsExample();
    RenderExample();
  }
}

=== FILE: picker_keys.dfy ===
/**
 * The string keys the searchable pickers give their items, the decoding the
 * submit handlers apply to them, the label lookup of the picker button and the
 * check-mark of each item.
 *
 * A composite key is the record id in decimal, a '-', then lower-cased labels
 * joined by '/'. Decoding reads only the text before the first '-' of the key
 * (`Number(key.split('-')[0])`); the digits of an id never contain '-', so the
 * id comes back whatever the labels contain.
 */
module PickerKeys {
  import opened Wrappers
  import opened Text
  import opened Numbers

  // Lookup records fetched from the remote API (only the fields the pickers read).
  datatype City = City(id: nat, nome: string)
  datatype Policy = Policy(id: nat, numero: string, cliente: string)
  datatype Vehicle = Vehicle(id: nat, marca: string, modelo: string, matricula: string)

  /** The value of a plain select item: `ID.toString()`. */
  function SelectValue(id: nat): string {
    NatToString(id)
  }

  /** `${city.ID}-${city.NOME.toLowerCase()}` */
  function CityKey(c: City): string {
    NatToString(c.id) + "-" + Lower(c.nome)
  }

  /** `${apolice.ID}-${apolice.NUMERO.toLowerCase()}/${apolice.CLIENTE.toLowerCase()}` */
  function PolicyKey(p: Policy): string {
    NatToString(p.id) + "-" + Lower(p.numero) + "/" + Lower(p.cliente)
  }

  /** `${vehicle.ID}-${MARCA.toLowerCase()}/${MODELO.toLowerCase()}/${MATRICULA.toLowerCase()}` */
  function VehicleKey(v: Vehicle): string {
    NatToString(v.id) + "-" + Lower(v.marca) + "/" + Lower(v.modelo) + "/" + Lower(v.matricula)
  }

  /** `Number(key.split('-')[0])` */
  function DecodeKey(key: string): JsNum {
    Number(Split(key, '-')[0])
  }

  /** A plain select value reads back as the id it was rendered from. */
  lemma SelectRoundTrip(id: nat)
    ensures Number(SelectValue(id)) == Finite(id as real)
  {
    NumberOfNatToString(id);
  }

  /** Whatever follows the first '-', the decimal id in front of it decodes back. */
  lemma {:induction false} DecodeComposite(id: nat, rest: string)
    ensures DecodeKey(NatToString(id) + "-" + rest) == Finite(id as real)
  {
    var digits := NatToString(id);
    assert '-' !in digits;
    SplitAtFirst(digits, '-', rest);
    NumberOfNatToString(id);
  }

  /** Any key that begins with the decimal id and a '-' decodes to that id. */
  lemma DecodePrefixed(id: nat, key: string)
    requires NatToString(id) + "-" <= key
    ensures DecodeKey(key) == Finite(id as real)
  {
    var head := NatToString(id) + "-";
    var rest := key[|head|..];
    assert key == head + rest;
    DecodeComposite(id, rest);
  }

  lemma PrefixOfAppend(p: string, x: string, y: string)
    requires p <= x
    ensures p <= x + y
  {
    assert (x + y)[..|p|] == x[..|p|];
  }

  lemma DecodeCityKey(c: City)
    ensures DecodeKey(CityKey(c)) == Finite(c.id as real)
  {
    DecodeComposite(c.id, Lower(c.nome));
  }

  lemma DecodePolicyKey(p: Policy)
    ensures DecodeKey(PolicyKey(p)) == Finite(p.id as real)
  {
    var head := NatToString(p.id) + "-";
    PrefixOfAppend(head, head, Lower(p.numero));
    PrefixOfAppend(head, head + Lower(p.numero), "/");
    PrefixOfAppend(head, head + Lower(p.numero) + "/", Lower(p.cliente));
    DecodePrefixed(p.id, PolicyKey(p));
  }

  lemma DecodeVehicleKey(v: Vehicle)
    ensures DecodeKey(VehicleKey(v)) == Finite(v.id as real)
  {
    var head := NatToString(v.id) + "-";
    var a := head + Lower(v.marca);
    var b := a + "/" + Lower(v.modelo);
    PrefixOfAppend(head, head, Lower(v.marca));
    PrefixOfAppend(head, a, "/");
    PrefixOfAppend(head, a + "/", Lower(v.modelo));
    PrefixOfAppend(head, b, "/");
    PrefixOfAppend(head, b + "/", Lower(v.matricula));
    DecodePrefixed(v.id, VehicleKey(v));
  }

  // Label lookup (`list.find(x => key(x) === field.value)`)
  // ---------------------------------------------------------------------------

  /** The first item whose key is `value`, or None. */
  function Find<T>(items: seq<T>, key: T -> string, value: string): (r: Option<T>)
    ensures r.Some? ==> r.value in items && key(r.value) == value
    ensures r.Some? ==> exists i :: 0 <= i < |items| && items[i] == r.value
                          && forall j :: 0 <= j < i ==> key(items[j]) != value
    ensures r.None? ==> forall i :: 0 <= i < |items| ==> key(items[i]) != value
  {
    if |items| == 0 then None
    else if key(items[0]) == value then Some(items[0])
    else
      var rest := Find(items[1..], key, value);
      assert rest.Some? ==> exists i :: 0 <= i < |items| && items[i] == rest.value
                              && forall j :: 0 <= j < i ==> key(items[j]) != value by {
        if rest.Some? {
          var i :| 0 <= i < |items[1..]| && items[1..][i] == rest.value
                   && forall j :: 0 <= j < i ==> key(items[1..][j]) != value;
          assert items[i + 1] == rest.value;
          forall j | 0 <= j < i + 1 ensures key(items[j]) != value {
            if j > 0 { assert items[j] == items[1..][j - 1]; }
          }
        }
      }
      rest
  }

  ghost predicate DistinctIds<T>(items: seq<T>, id: T -> nat) {
    forall i, j :: 0 <= i < |items| && 0 <= j < |items| && i != j ==> id(items[i]) != id(items[j])
  }

  /**
   * Keys that decode to their record's id are injective on a list with
   * distinct ids, so looking up the key of item `k` finds item `k` itself.
   */
  lemma {:induction false} FindSelected<T>(items: seq<T>, key: T -> string, id: T -> nat, k: nat)
    requires forall x :: DecodeKey(key(x)) == Finite(id(x) as real)
    requires DistinctIds(items, id)
    requires k < |items|
    ensures Find(items, key, key(items[k])) == Some(items[k])
    decreases k
  {
    if key(items[0]) == key(items[k]) {
      assert id(items[0]) as real == id(items[k]) as real;
    } else {
      assert DistinctIds(items[1..], id) by {
        forall i, j | 0 <= i < |items| - 1 && 0 <= j < |items| - 1 && i != j
          ensures id(items[1..][i]) != id(items[1..][j])
        {
          assert items[1..][i] == items[i + 1] && items[1..][j] == items[j + 1];
        }
      }
      FindSelected(items[1..], key, id, k - 1);
      assert items[1..][k - 1] == items[k];
    }
  }

  function CityId(c: City): nat { c.id }
  function PolicyId(p: Policy): nat { p.id }
  function VehicleId(v: Vehicle): nat { v.id }

  /**
   * The city picker's button label once a value is set: `cities.find(...)?.NOME`.
   * With an empty value the button shows its placeholder text instead.
   */
  function CityLabel(cities: seq<City>, value: string): (r: Option<string>)
    ensures r.Some? ==> exists i :: 0 <= i < |cities| && CityKey(cities[i]) == value && r.value == cities[i].nome
                          && forall j :: 0 <= j < i ==> CityKey(cities[j]) != value
    ensures r.None? <==> forall c :: c in cities ==> CityKey(c) != value
  {
    match Find(cities, CityKey, value)
    case Some(c) => Some(c.nome)
    case None => None
  }

  /** After picking city `k` from a list with distinct ids, the button shows that city's name. */
  lemma SelectedCityLabel(cities: seq<City>, k: nat)
    requires DistinctIds(cities, CityId)
    requires k < |cities|
    ensures Find(cities, CityKey, CityKey(cities[k])) == Some(cities[k])
    ensures CityLabel(cities, CityKey(cities[k])) == Some(cities[k].nome)
  {
    forall c: City ensures DecodeKey(CityKey(c)) == Finite(CityId(c) as real) {
      DecodeCityKey(c);
    }
    FindSelected(cities, CityKey, CityId, k);
  }

  /**
   * The policy picker's button label once a value is set: `apolices.find(...)?.NUMERO`.
   * With an empty value the button shows its placeholder text instead.
   */
  function PolicyLabel(policies: seq<Policy>, value: string): (r: Option<string>)
    ensures r.Some? ==> exists i :: 0 <= i < |policies| && PolicyKey(policies[i]) == value && r.value == policies[i].numero
                          && forall j :: 0 <= j < i ==> PolicyKey(policies[j]) != value
    ensures r.None? <==> forall p :: p in policies ==> PolicyKey(p) != value
  {
    match Find(policies, PolicyKey, value)
    case Some(p) => Some(p.numero)
    case None => None
  }

  lemma SelectedPolicyLabel(policies: seq<Policy>, k: nat)
    requires DistinctIds(policies, PolicyId)
    requires k < |policies|
    ensures Find(policies, PolicyKey, PolicyKey(policies[k])) == Some(policies[k])
    ensures PolicyLabel(policies, PolicyKey(policies[k])) == Some(policies[k].numero)
  {
    forall p: Policy ensures DecodeKey(PolicyKey(p)) == Finite(PolicyId(p) as real) {
      DecodePolicyKey(p);
    }
    FindSelected(policies, PolicyKey, PolicyId, k);
  }

  /**
   * The vehicle picker's button label once a value is set: `vehicles.find(...)?.MARCA`.
   * With an empty value the button shows its placeholder text instead.
   */
  function VehicleLabel(vehicles: seq<Vehicle>, value: string): (r: Option<string>)
    ensures r.Some? ==> exists i :: 0 <= i < |vehicles| && VehicleKey(vehicles[i]) == value && r.value == vehicles[i].marca
                          && forall j :: 0 <= j < i ==> VehicleKey(vehicles[j]) != value
    ensures r.None? <==> forall v :: v in vehicles ==> VehicleKey(v) != value
  {
    match Find(vehicles, VehicleKey, value)
    case Some(v) => Some(v.marca)
    case None => None
  }

  lemma SelectedVehicleLabel(vehicles: seq<Vehicle>, k: nat)
    requires DistinctIds(vehicles, VehicleId)
    requires k < |vehicles|
    ensures Find(vehicles, VehicleKey, VehicleKey(vehicles[k])) == Some(vehicles[k])
    ensures VehicleLabel(vehicles, VehicleKey(vehicles[k])) == Some(vehicles[k].marca)
  {
    forall v: Vehicle ensures DecodeKey(VehicleKey(v)) == Finite(VehicleId(v) as real) {
      DecodeVehicleKey(v);
    }
    FindSelected(vehicles, VehicleKey, VehicleId, k);
  }

  // ---------------------------------------------------------------------------
  // Check-marks: an item's mark is lit when its key equals the field value
  // ---------------------------------------------------------------------------

  predicate CityMark(c: City, value: string) {
    CityKey(c) == value
  }

  predicate PolicyMark(p: Policy, value: string) {
    PolicyKey(p) == value
  }

  /** After picking item `k`, exactly item `k`'s mark is lit (ids distinct). */
  lemma CityMarkIffSelected(cities: seq<City>, k: nat, j: nat)
    requires DistinctIds(cities, CityId)
    requires k < |cities| && j < |cities|
    ensures CityMark(cities[j], CityKey(cities[k])) <==> j == k
  {
    if CityKey(cities[j]) == CityKey(cities[k]) {
      DecodeCityKey(cities[j]);
      DecodeCityKey(cities[k]);
    }
  }

  lemma PolicyMarkIffSelected(policies: seq<Policy>, k: nat, j: nat)
    requires DistinctIds(policies, PolicyId)
    requires k < |policies| && j < |policies|
    ensures PolicyMark(policies[j], PolicyKey(policies[k])) <==> j == k
  {
    if PolicyKey(policies[j]) == PolicyKey(policies[k]) {
      DecodePolicyKey(policies[j]);
      DecodePolicyKey(policies[k]);
    }
  }

  /**
   * The vehicle check-mark as written: it rebuilds the key with the plate
   * upper-cased (`toLocaleUpperCase`), while the item's value lower-cases it.
   */
  predicate VehicleMarkAsWritten(v: Vehicle, value: string) {
    NatToString(v.id) + "-" + Lower(v.marca) + "/" + Lower(v.modelo) + "/" + Upper(v.matricula) == value
  }

  /** The vehicle check-mark with the same key expression as the item's value. */
  predicate VehicleMark(v: Vehicle, value: string) {
    VehicleKey(v) == value
  }

  /**
   * As written, a selected vehicle's mark is lit only when upper- and
   * lower-casing its plate agree.
   */
  lemma VehicleMarkAsWrittenSelected(v: Vehicle)
    ensures VehicleMarkAsWritten(v, VehicleKey(v)) <==> Upper(v.matricula) == Lower(v.matricula)
  {
    var prefix := NatToString(v.id) + "-" + Lower(v.marca) + "/" + Lower(v.modelo) + "/";
    assert VehicleKey(v) == prefix + Lower(v.matricula);
    var marked := prefix + Upper(v.matricula);
    if marked == VehicleKey(v) {
      assert marked[|prefix|..] == Upper(v.matricula);
      assert VehicleKey(v)[|prefix|..] == Lower(v.matricula);
    }
  }

  /**
   * As written, a selected vehicle's mark is lit exactly when its plate has
   * no letter: any letter in the plate keeps the mark dark.
   */
  lemma AnyLetterDarkensMark(v: Vehicle)
    ensures VehicleMarkAsWritten(v, VehicleKey(v)) <==>
            forall i :: 0 <= i < |v.matricula| ==> !IsLetter(v.matricula[i])
  {
    VehicleMarkAsWrittenSelected(v);
    CaseAgreesIffNoLetter(v.matricula);
  }

  /** A plate with letters: the vehicle is selected, yet its mark stays dark. */
  lemma VehicleMarkAsWrittenMissesSelection()
    ensures var v := Vehicle(7, "Toyota", "Hilux", "LD-23-45-AB");
            forall value :: value == VehicleKey(v) ==> !VehicleMarkAsWritten(v, value)
  {
    var v := Vehicle(7, "Toyota", "Hilux", "LD-23-45-AB");
    assert Lower(v.matricula)[0] == 'l';
    assert Upper(v.matricula)[0] == 'L';
    VehicleMarkAsWrittenSelected(v);
  }

  /** With the item's own key, exactly the selected vehicle's mark is lit. */
  lemma VehicleMarkIffSelected(vehicles: seq<Vehicle>, k: nat, j: nat)
    requires DistinctIds(vehicles, VehicleId)
    requires k < |vehicles| && j < |vehicles|
    ensures VehicleMark(vehicles[j], VehicleKey(vehicles[k])) <==> j == k
  {
    if VehicleKey(vehicles[j]) == VehicleKey(vehicles[k]) {
      DecodeVehicleKey(vehicles[j]);
      DecodeVehicleKey(vehicles[k]);
    }
  }
}

=== FILE: profile_form.dfy ===
/**
 * The client-creation form: `createProfileSchema`, the data it parses, the
 * nested `clients` payload `handleCreateProfile` posts, and what follows the post.
 */
module ProfileForm {
  import opened Wrappers
  import opened Text
  import opened Numbers
  import opened PickerKeys
  import opened Schema
  import opened Submission

  datatype Field =
    | Nome | DataNascimento | Sexo | EstadoCivil | Nib | Nif | FiliacaoPai | FiliacaoMae
    | Naturalidade | Profissao | Renumeracao | Tipo | DocNumero | DocDataEmissao | DocDataValidade
    | AutNumero | AutDataEmissao | AutDataValidade | Telefone | TelefoneAlternativo | Email
    | CaixaPostal | Cidade | Morada | Rua

  /** The fields in declaration order. */
  const Fields: seq<Field> := [
    Nome, DataNascimento, Sexo, EstadoCivil, Nib, Nif, FiliacaoPai, FiliacaoMae,
    Naturalidade, Profissao, Renumeracao, Tipo, DocNumero, DocDataEmissao, DocDataValidade,
    AutNumero, AutDataEmissao, AutDataValidade, Telefone, TelefoneAlternativo, Email,
    CaixaPostal, Cidade, Morada, Rua]

  /** The fields declared `.nonempty({ message: 'Campo obrigatório' })` and nothing else. */
  const FilledFields: seq<Field> := [
    Nome, FiliacaoPai, FiliacaoMae, Naturalidade, Profissao, Renumeracao, Tipo,
    DocNumero, DocDataEmissao, DocDataValidade, AutNumero, AutDataEmissao, AutDataValidade,
    Cidade, Morada, Rua]

  const Obligatory := Custom("Campo obrigatório")
  const Negative := Custom("Número negativo")
  const BadEmail := Custom("Formato de e-mail inválido")

  function StringField(presence: Presence, checks: seq<Check>): FieldSchema {
    FieldSchema(StringKind, presence, ZodDefault, checks)
  }

  /** `createProfileSchema`, field by field. */
  function Rule(n: Field): FieldSchema {
    match n
    case Nome | FiliacaoPai | FiliacaoMae | Naturalidade | Profissao | Renumeracao | Tipo
       | DocNumero | DocDataEmissao | DocDataValidade | AutNumero | AutDataEmissao | AutDataValidade
       | Cidade | Morada | Rua =>
      StringField(Required(ZodDefault), [NonEmpty(Obligatory)])
    case DataNascimento | EstadoCivil | Nif => StringField(Required(ZodDefault), [])
    case Sexo => StringField(Defaulted(Str("M")), [])
    case Nib | CaixaPostal => StringField(Optional, [])
    case Telefone | TelefoneAlternativo =>
      FieldSchema(NumberKind, Required(ZodDefault), ZodDefault, [NonNegative(Negative)])
    case Email => StringField(Required(ZodDefault), [EmailFormat(BadEmail), NonEmpty(Obligatory)])
  }

  /** `CreateProfileData`: the parsed form data. */
  datatype ProfileData = ProfileData(
    nome: string, dataNascimento: string, sexo: string, estadoCivil: string,
    nib: Option<string>, nif: string, filiacaoPai: string, filiacaoMae: string,
    naturalidade: string, profissao: string, renumeracao: string, tipo: string,
    docNumero: string, docDataEmissao: string, docDataValidade: string,
    autNumero: string, autDataEmissao: string, autDataValidade: string,
    telefone: real, telefoneAlternativo: real, email: string, caixaPostal: Option<string>,
    cidade: string, morada: string, rua: string)

  function DataOf(p: Field -> Value): ProfileData {
    ProfileData(
      TextOf(p(Nome)), TextOf(p(DataNascimento)), TextOf(p(Sexo)), TextOf(p(EstadoCivil)),
      OptTextOf(p(Nib)), TextOf(p(Nif)), TextOf(p(FiliacaoPai)), TextOf(p(FiliacaoMae)),
      TextOf(p(Naturalidade)), TextOf(p(Profissao)), TextOf(p(Renumeracao)), TextOf(p(Tipo)),
      TextOf(p(DocNumero)), TextOf(p(DocDataEmissao)), TextOf(p(DocDataValidade)),
      TextOf(p(AutNumero)), TextOf(p(AutDataEmissao)), TextOf(p(AutDataValidade)),
      NumberOf(p(Telefone)), NumberOf(p(TelefoneAlternativo)), TextOf(p(Field.Email)), OptTextOf(p(CaixaPostal)),
      TextOf(p(Cidade)), TextOf(p(Morada)), TextOf(p(Rua)))
  }

  // The request body, `{ clients: { ... } }`.
  datatype PersonalDocument = PersonalDocument(tipo: JsNum, numero: string, dataEmissao: string, dataValidade: string)
  datatype DrivingLicence = DrivingLicence(numero: string, dataEmissao: string, dataValidade: string)
  datatype Documentation = Documentation(pessoal: PersonalDocument, automovel: DrivingLicence)
  datatype Contacts = Contacts(telefone: real, telefoneAlternativo: real, email: string, caixaPostal: Option<string>)
  datatype Address = Address(cidade: JsNum, morada: string, rua: string)
  datatype ClientRecord = ClientRecord(
    nome: string, dataNascimento: string, sexo: string, nib: Option<string>, nif: string,
    estadoCivil: JsNum, filiacaoPai: string, filiacaoMae: string, naturalidade: JsNum,
    profissao: JsNum, renumeracao: JsNum, documentacao: Documentation, contactos: Contacts,
    endereco: Address)
  datatype ProfilePayload = ProfilePayload(clients: ClientRecord)

  /** The object literal `handleCreateProfile` builds. */
  function Transform(d: ProfileData): (r: ProfilePayload)
    ensures r.clients.endereco.cidade == r.clients.naturalidade
  {
    ProfilePayload(ClientRecord(
      d.nome, d.dataNascimento, d.sexo, d.nib, d.nif,
      Number(d.estadoCivil), d.filiacaoPai, d.filiacaoMae, DecodeKey(d.naturalidade),
      Number(d.profissao), Number(d.renumeracao),
      Documentation(
        PersonalDocument(Number(d.tipo), d.docNumero, d.docDataEmissao, d.docDataValidade),
        DrivingLicence(d.autNumero, d.autDataEmissao, d.autDataValidade)),
      Contacts(d.telefone, d.telefoneAlternativo, d.email, d.caixaPostal),
      Address(DecodeKey(d.naturalidade), d.morada, d.rua)))
  }

  /** The data the handler receives for a form state. */
  function ParsedData(st: Field -> Value): ProfileData {
    DataOf(ParsedState(Rule, st))
  }

  /** Pressing "Salvar": the field messages recorded, or the one payload posted. */
  function SubmitProfile(st: Field -> Value): (r: Step<Field, ProfilePayload>)
    ensures r.Post? <==> IsValid(Fields, Rule, st)
    ensures r.Post? ==> r.payload == Transform(ParsedData(st))
  {
    Submit(Fields, Rule, st, p => Transform(DataOf(p)))
  }

  /**
   * After the post: any response is a success (the status is not read), which
   * closes the modal, resets the form and reloads the page; a thrown error
   * only shows the fixed message, and the form keeps its data.
   */
  function ProfileOutcome(r: Response): (o: Outcome)
    ensures ResetForm in o.effects <==> r.Responded?
    ensures CloseModal in o.effects <==> r.Responded?
    ensures o.toast == (if r.Responded? then SuccessToast("Cliente criado com sucesso")
                        else ErrorToast("Não foi possível criar o cliente"))
    ensures !Navigates(o)
  {
    match r
    case Responded(_) => Outcome(SuccessToast("Cliente criado com sucesso"), [CloseModal, ResetForm, ReloadRoute])
    case Threw => Outcome(ErrorToast("Não foi possível criar o cliente"), [])
  }

  // ---------------------------------------------------------------------------
  // Properties
  // ---------------------------------------------------------------------------

  lemma ListedField(n: Field)
    ensures n in Fields
  {
    match n
    case Nome => assert Fields[0] == n;
    case DataNascimento => assert Fields[1] == n;
    case Sexo => assert Fields[2] == n;
    case EstadoCivil => assert Fields[3] == n;
    case Nib => assert Fields[4] == n;
    case Nif => assert Fields[5] == n;
    case FiliacaoPai => assert Fields[6] == n;
    case FiliacaoMae => assert Fields[7] == n;
    case Naturalidade => assert Fields[8] == n;
    case Profissao => assert Fields[9] == n;
    case Renumeracao => assert Fields[10] == n;
    case Tipo => assert Fields[11] == n;
    case DocNumero => assert Fields[12] == n;
    case DocDataEmissao => assert Fields[13] == n;
    case DocDataValidade => assert Fields[14] == n;
    case AutNumero => assert Fields[15] == n;
    case AutDataEmissao => assert Fields[16] == n;
    case AutDataValidade => assert Fields[17] == n;
    case Telefone => assert Fields[18] == n;
    case TelefoneAlternativo => assert Fields[19] == n;
    case Email => assert Fields[20] == n;
    case CaixaPostal => assert Fields[21] == n;
    case Cidade => assert Fields[22] == n;
    case Morada => assert Fields[23] == n;
    case Rua => assert Fields[24] == n;
  }

  /** On a valid form every field is accepted by its rule (`Schema.ValidAccepts` on this form's fields). */
  lemma FieldAccepted(st: Field -> Value, n: Field)
    requires IsValid(Fields, Rule, st)
    ensures Accepts(Rule(n), st(n))
  {
    ListedField(n);
    ValidAccepts(Fields, Rule, st, n);
  }

  /**
   * A field declared non-empty rejects `""` with exactly 'Campo obrigatório'
   * and accepts every non-empty string.
   */
  lemma FilledFieldRule(n: Field, s: string)
    requires n in FilledFields
    ensures FirstIssue(Rule(n), Str("")) == Some(Obligatory)
    ensures Accepts(Rule(n), Str(s)) <==> |s| >= 1
  {
    var f := StringField(Required(ZodDefault), [NonEmpty(Obligatory)]);
    assert Rule(n) == f;
    assert CheckIssues(f.checks, Str("")) == [Obligatory];
  }

  /**
   * `email` accepts exactly the addresses; since its format check is declared
   * first, an empty `email` gets the format message, not 'Campo obrigatório'.
   */
  lemma EmailRule(s: string)
    ensures Accepts(Rule(Field.Email), Str(s)) <==> IsEmail(s)
    ensures FirstIssue(Rule(Field.Email), Str("")) == Some(BadEmail)
  {
    var checks := Rule(Field.Email).checks;
    assert |checks| == 2;
    if IsEmail(s) {
      var parts := Split(s, '@');
      assert parts[0] <= s;
    }
    EmptyIsNotEmail();
  }

  /** The phone fields are rejected with 'Número negativo' exactly when negative. */
  lemma PhoneRule(n: Field, x: real)
    requires n == Telefone || n == TelefoneAlternativo
    ensures FirstIssue(Rule(n), Num(Finite(x))) == (if x < 0.0 then Some(Negative) else None)
    ensures FirstIssue(Rule(n), Num(NaN)) == Some(ZodDefault)
  {
    if x < 0.0 {
      FirstCheckIssue(Rule(n).checks, Num(Finite(x)), 0);
    }
  }

  /** An empty `nome` blocks the submit, with 'Campo obrigatório' recorded for `nome`. */
  lemma EmptyNomeBlocks(st: Field -> Value)
    requires st(Nome) == Str("")
    ensures SubmitProfile(st).Blocked?
    ensures (Nome, Obligatory) in SubmitProfile(st).errors
  {
    assert Fields[0] == Nome;
    FilledFieldRule(Nome, "");
    ErrorListComplete(Fields, Rule, st, 0);
    ErrorListSound(Fields, Rule, st);
    var e :| e in ErrorList(Fields, Rule, st) && e.0 == Nome;
  }

  /** A negative `telefone` blocks the submit, with 'Número negativo' recorded for it. */
  lemma NegativePhoneBlocks(st: Field -> Value, x: real)
    requires st(Telefone) == Num(Finite(x)) && x < 0.0
    ensures SubmitProfile(st).Blocked?
    ensures (Telefone, Negative) in SubmitProfile(st).errors
  {
    assert Fields[18] == Telefone;
    PhoneRule(Telefone, x);
    ErrorListComplete(Fields, Rule, st, 18);
    ErrorListSound(Fields, Rule, st);
    var e :| e in ErrorList(Fields, Rule, st) && e.0 == Telefone;
  }

  /** A required text field reaches the handler as typed (`Schema.ValidText` on this form's fields). */
  lemma FieldText(st: Field -> Value, n: Field)
    requires IsValid(Fields, Rule, st)
    requires Rule(n).kind == StringKind && Rule(n).presence.Required?
    ensures st(n) == Str(TextOf(ParsedState(Rule, st)(n)))
  {
    ListedField(n);
    ValidText(Fields, Rule, st, n);
  }

  lemma ValidOptional(st: Field -> Value, n: Field)
    requires IsValid(Fields, Rule, st)
    requires n == Nib || n == CaixaPostal
    ensures var o := OptTextOf(ParsedState(Rule, st)(n));
      (st(n).Str? <==> o.Some?) && (st(n).Str? ==> o.value == st(n).s)
  {
    FieldAccepted(st, n);
  }

  lemma ValidPhone(st: Field -> Value, n: Field)
    requires IsValid(Fields, Rule, st)
    requires n == Telefone || n == TelefoneAlternativo
    ensures st(n) == Num(Finite(NumberOf(ParsedState(Rule, st)(n))))
  {
    FieldAccepted(st, n);
  }

  lemma ParsedPersonFaithful(st: Field -> Value)
    requires IsValid(Fields, Rule, st)
    ensures var d := ParsedData(st);
      && st(Nome) == Str(d.nome) && st(DataNascimento) == Str(d.dataNascimento)
      && st(EstadoCivil) == Str(d.estadoCivil) && st(Nif) == Str(d.nif)
      && st(FiliacaoPai) == Str(d.filiacaoPai) && st(FiliacaoMae) == Str(d.filiacaoMae)
      && st(Naturalidade) == Str(d.naturalidade) && st(Profissao) == Str(d.profissao)
      && st(Renumeracao) == Str(d.renumeracao)
      && (if st(Sexo) == Undefined then d.sexo == "M" else st(Sexo) == Str(d.sexo))
      && (st(Nib).Str? <==> d.nib.Some?) && (st(Nib).Str? ==> d.nib.value == st(Nib).s)
  {
    FieldText(st, Nome); FieldText(st, DataNascimento); FieldText(st, EstadoCivil);
    FieldText(st, Nif); FieldText(st, FiliacaoPai); FieldText(st, FiliacaoMae);
    FieldText(st, Naturalidade); FieldText(st, Profissao); FieldText(st, Renumeracao);
    FieldAccepted(st, Sexo); ValidOptional(st, Nib);
  }

  lemma ParsedDocumentsFaithful(st: Field -> Value)
    requires IsValid(Fields, Rule, st)
    ensures var d := ParsedData(st);
      && st(Tipo) == Str(d.tipo)
      && st(DocNumero) == Str(d.docNumero) && st(DocDataEmissao) == Str(d.docDataEmissao)
      && st(DocDataValidade) == Str(d.docDataValidade) && st(AutNumero) == Str(d.autNumero)
      && st(AutDataEmissao) == Str(d.autDataEmissao) && st(AutDataValidade) == Str(d.autDataValidade)
  {
    FieldText(st, Tipo); FieldText(st, DocNumero); FieldText(st, DocDataEmissao);
    FieldText(st, DocDataValidade); FieldText(st, AutNumero); FieldText(st, AutDataEmissao);
    FieldText(st, AutDataValidade);
  }

  lemma ParsedContactsFaithful(st: Field -> Value)
    requires IsValid(Fields, Rule, st)
    ensures var d := ParsedData(st);
      && st(Telefone) == Num(Finite(d.telefone)) && st(TelefoneAlternativo) == Num(Finite(d.telefoneAlternativo))
      && st(Field.Email) == Str(d.email)
      && (st(CaixaPostal).Str? <==> d.caixaPostal.Some?) && (st(CaixaPostal).Str? ==> d.caixaPostal.value == st(CaixaPostal).s)
      && st(Cidade) == Str(d.cidade) && st(Morada) == Str(d.morada) && st(Rua) == Str(d.rua)
  {
    ParsedPhoneMailFaithful(st);
    ParsedAddressFaithful(st);
  }

  lemma ParsedPhoneMailFaithful(st: Field -> Value)
    requires IsValid(Fields, Rule, st)
    ensures var d := ParsedData(st);
      && st(Telefone) == Num(Finite(d.telefone)) && st(TelefoneAlternativo) == Num(Finite(d.telefoneAlternativo))
      && st(Field.Email) == Str(d.email)
      && (st(CaixaPostal).Str? <==> d.caixaPostal.Some?) && (st(CaixaPostal).Str? ==> d.caixaPostal.value == st(CaixaPostal).s)
  {
    ValidPhone(st, Telefone); ValidPhone(st, TelefoneAlternativo); FieldText(st, Field.Email);
    ValidOptional(st, CaixaPostal);
  }

  lemma ParsedAddressFaithful(st: Field -> Value)
    requires IsValid(Fields, Rule, st)
    ensures var d := ParsedData(st);
      st(Cidade) == Str(d.cidade) && st(Morada) == Str(d.morada) && st(Rua) == Str(d.rua)
  {
    FieldText(st, Cidade); FieldText(st, Morada); FieldText(st, Rua);
  }

  /**
   * On a valid form the handler receives every string field as typed (with
   * 'M' for an unset `sexo`), the phones as typed, and the optional fields
   * as typed when present.
   */
  lemma ParsedDataFaithful(st: Field -> Value)
    requires IsValid(Fields, Rule, st)
    ensures var d := ParsedData(st);
      && st(Nome) == Str(d.nome) && st(DataNascimento) == Str(d.dataNascimento)
      && st(EstadoCivil) == Str(d.estadoCivil) && st(Nif) == Str(d.nif)
      && st(FiliacaoPai) == Str(d.filiacaoPai) && st(FiliacaoMae) == Str(d.filiacaoMae)
      && st(Naturalidade) == Str(d.naturalidade) && st(Profissao) == Str(d.profissao)
      && st(Renumeracao) == Str(d.renumeracao) && st(Tipo) == Str(d.tipo)
      && st(DocNumero) == Str(d.docNumero) && st(DocDataEmissao) == Str(d.docDataEmissao)
      && st(DocDataValidade) == Str(d.docDataValidade) && st(AutNumero) == Str(d.autNumero)
      && st(AutDataEmissao) == Str(d.autDataEmissao) && st(AutDataValidade) == Str(d.autDataValidade)
      && st(Telefone) == Num(Finite(d.telefone)) && st(TelefoneAlternativo) == Num(Finite(d.telefoneAlternativo))
      && st(Field.Email) == Str(d.email)
      && st(Cidade) == Str(d.cidade) && st(Morada) == Str(d.morada) && st(Rua) == Str(d.rua)
      && (if st(Sexo) == Undefined then d.sexo == "M" else st(Sexo) == Str(d.sexo))
      && (st(Nib).Str? <==> d.nib.Some?) && (st(Nib).Str? ==> d.nib.value == st(Nib).s)
      && (st(CaixaPostal).Str? <==> d.caixaPostal.Some?) && (st(CaixaPostal).Str? ==> d.caixaPostal.value == st(CaixaPostal).s)
  {
    ParsedPersonFaithful(st);
    ParsedDocumentsFaithful(st);
    ParsedContactsFaithful(st);
  }

  /**
   * The typed-in fields reach their nested places in the payload verbatim,
   * the optional ones as absent when left unset, and the select values
   * through `Number` (the birthplace key through its id prefix).
   */
  lemma TextCopied(st: Field -> Value)
    requires IsValid(Fields, Rule, st)
    ensures SubmitProfile(st).Post?
    ensures var c := SubmitProfile(st).payload.clients;
      && st(Nome) == Str(c.nome) && st(DataNascimento) == Str(c.dataNascimento) && st(Nif) == Str(c.nif)
      && st(FiliacaoPai) == Str(c.filiacaoPai) && st(FiliacaoMae) == Str(c.filiacaoMae)
      && st(DocNumero) == Str(c.documentacao.pessoal.numero)
      && st(DocDataEmissao) == Str(c.documentacao.pessoal.dataEmissao)
      && st(DocDataValidade) == Str(c.documentacao.pessoal.dataValidade)
      && st(AutNumero) == Str(c.documentacao.automovel.numero)
      && st(AutDataEmissao) == Str(c.documentacao.automovel.dataEmissao)
      && st(AutDataValidade) == Str(c.documentacao.automovel.dataValidade)
      && st(Field.Email) == Str(c.contactos.email)
      && st(Telefone) == Num(Finite(c.contactos.telefone))
      && st(TelefoneAlternativo) == Num(Finite(c.contactos.telefoneAlternativo))
      && st(Morada) == Str(c.endereco.morada) && st(Rua) == Str(c.endereco.rua)
      && (st(Nib).Str? ==> c.nib == Some(st(Nib).s)) && (!st(Nib).Str? ==> c.nib == None)
      && (st(CaixaPostal).Str? ==> c.contactos.caixaPostal == Some(st(CaixaPostal).s))
      && (!st(CaixaPostal).Str? ==> c.contactos.caixaPostal == None)
      && (st(Sexo).Str? ==> c.sexo == st(Sexo).s) && (st(Sexo) == Undefined ==> c.sexo == "M")
  ensures var c := SubmitProfile(st).payload.clients;
      && st(Renumeracao).Str? && c.renumeracao == Number(st(Renumeracao).s)
      && st(EstadoCivil).Str? && c.estadoCivil == Number(st(EstadoCivil).s)
      && st(Profissao).Str? && c.profissao == Number(st(Profissao).s)
      && st(Tipo).Str? && c.documentacao.pessoal.tipo == Number(st(Tipo).s)
      && st(Naturalidade).Str? && c.naturalidade == DecodeKey(st(Naturalidade).s)
      && c.endereco.cidade == DecodeKey(st(Naturalidade).s)
  {
    ParsedDataFaithful(st);
  }

  /**
   * The ids chosen in the pickers come back as numbers: the birthplace city
   * from its key, and civil status, profession and document type from their
   * `ID.toString()` values. The address city is the birthplace city.
   */
  lemma IdsDecoded(st: Field -> Value, birthplace: City, civil: nat, job: nat, docType: nat)
    requires IsValid(Fields, Rule, st)
    requires st(Naturalidade) == Str(CityKey(birthplace))
    requires st(EstadoCivil) == Str(SelectValue(civil))
    requires st(Profissao) == Str(SelectValue(job))
    requires st(Tipo) == Str(SelectValue(docType))
    ensures SubmitProfile(st).Post?
    ensures var c := SubmitProfile(st).payload.clients;
      && c.naturalidade == Finite(birthplace.id as real)
      && c.endereco.cidade == Finite(birthplace.id as real)
      && c.estadoCivil == Finite(civil as real)
      && c.profissao == Finite(job as real)
      && c.documentacao.pessoal.tipo == Finite(docType as real)
  {
    ParsedDataFaithful(st);
    DecodeCityKey(birthplace);
    SelectRoundTrip(civil);
    SelectRoundTrip(job);
    SelectRoundTrip(docType);
  }

  /** The `cidade` picker is validated but never read: changing it leaves the payload as it is. */
  lemma CidadeNeverRead(st: Field -> Value, st': Field -> Value)
    requires forall n :: n != Cidade ==> st(n) == st'(n)
    requires IsValid(Fields, Rule, st) && IsValid(Fields, Rule, st')
    ensures SubmitProfile(st) == SubmitProfile(st')
  {
    var d := ParsedData(st);
    var d' := ParsedData(st');
    assert d' == d.(cidade := d'.cidade);
    TransformIgnoresCidade(d, d'.cidade);
  }

  lemma TransformIgnoresCidade(d: ProfileData, cidade: string)
    ensures Transform(d.(cidade := cidade)) == Transform(d)
  {
  }
}

=== FILE: schema.dfy ===
/**
 * A model of the zod object schemas the forms declare, read through
 * react-hook-form's zod resolver.
 *
 * Each field has a kind (string, number, boolean), a presence rule (required,
 * optional, or defaulted), the message for a value of the wrong kind, and a
 * list of refinement checks. A missing value fails the presence rule; a value
 * of the wrong kind (NaN counts as a wrong kind for numbers) fails with the
 * kind message and no check runs; otherwise every failing check contributes
 * its message, in declaration order. The resolver records the first message of
 * each field in the form's errors, and the form is valid when no field has any.
 */
module Schema {
  import opened Wrappers
  import opened Text
  import opened Numbers

  /** A raw form value; `Undefined` for a controlled field the user never set. */
  datatype Value = Undefined | Str(s: string) | Num(n: JsNum) | Bool(b: bool)

  /** A field message: a text the form supplies, or zod's own text for the issue. */
  datatype Message = Custom(text: string) | ZodDefault

  datatype Kind = StringKind | NumberKind | BooleanKind

  datatype Check =
    | NonEmpty(message: Message)      // `.nonempty(...)`
    | EmailFormat(message: Message)   // `.email(...)`
    | NonNegative(message: Message)   // `.nonnegative(...)`

  datatype Presence =
    | Required(message: Message)      // plain field; `required_error` when given
    | Optional                        // `.optional()`
    | Defaulted(value: Value)         // `.default(...)`

  datatype FieldSchema = FieldSchema(kind: Kind, presence: Presence, invalidType: Message, checks: seq<Check>)

  /** Shape of an e-mail address: one '@' with text on both sides. */
  predicate IsEmail(s: string) {
    var parts := Split(s, '@');
    |parts| == 2 && |parts[0]| >= 1 && |parts[1]| >= 1
  }

  lemma EmptyIsNotEmail()
    ensures !IsEmail("")
  {
  }

  predicate HasKind(k: Kind, v: Value) {
    match k
    case StringKind => v.Str?
    case NumberKind => v.Num? && v.n.Finite?
    case BooleanKind => v.Bool?
  }

  predicate Passes(c: Check, v: Value) {
    match c
    case NonEmpty(_) => v.Str? && |v.s| >= 1
    case EmailFormat(_) => v.Str? && IsEmail(v.s)
    case NonNegative(_) => v.Num? && v.n.Finite? && v.n.value >= 0.0
  }

  /** The messages of the failing checks, in declaration order. */
  function CheckIssues(checks: seq<Check>, v: Value): (r: seq<Message>)
    ensures |r| <= |checks|
    ensures r == [] <==> forall i :: 0 <= i < |checks| ==> Passes(checks[i], v)
    ensures forall m :: m in r ==> exists i :: 0 <= i < |checks| && !Passes(checks[i], v) && checks[i].message == m
  {
    if checks == [] then []
    else
      var rest := CheckIssues(checks[1..], v);
      assert forall i :: 1 <= i < |checks| ==> checks[1..][i - 1] == checks[i];
      (if Passes(checks[0], v) then [] else [checks[0].message]) + rest
  }

  /** The message of the first failing check is the first issue. */
  lemma {:induction false} FirstCheckIssue(checks: seq<Check>, v: Value, k: nat)
    requires k < |checks| && !Passes(checks[k], v)
    requires forall i :: 0 <= i < k ==> Passes(checks[i], v)
    ensures CheckIssues(checks, v) != [] && CheckIssues(checks, v)[0] == checks[k].message
    decreases k
  {
    if k > 0 {
      FirstCheckIssue(checks[1..], v, k - 1);
    }
  }

  /** The value zod parses: the default in place of a missing defaulted value. */
  function Supplied(f: FieldSchema, v: Value): (w: Value)
    ensures !v.Undefined? ==> w == v
  {
    if v.Undefined? && f.presence.Defaulted? then f.presence.value else v
  }

  /** Declarative reading of a schema field: when zod accepts a value. */
  predicate Accepts(f: FieldSchema, v: Value) {
    var w := Supplied(f, v);
    if w.Undefined? then !f.presence.Required?
    else HasKind(f.kind, w) && forall i :: 0 <= i < |f.checks| ==> Passes(f.checks[i], w)
  }

  /** All issues zod reports for one field. */
  function Issues(f: FieldSchema, v: Value): (r: seq<Message>)
    ensures r == [] <==> Accepts(f, v)
  {
    var w := Supplied(f, v);
    if w.Undefined? then (if f.presence.Required? then [f.presence.message] else [])
    else if !HasKind(f.kind, w) then [f.invalidType]
    else CheckIssues(f.checks, w)
  }

  /** The message the resolver records for a field in the form's errors. */
  function FirstIssue(f: FieldSchema, v: Value): (r: Option<Message>)
    ensures r.None? <==> Accepts(f, v)
  {
    var issues := Issues(f, v);
    if issues == [] then None else Some(issues[0])
  }

  // ---------------------------------------------------------------------------
  // Whole forms: a field list, a schema per field, and a state per field
  // ---------------------------------------------------------------------------

  predicate IsValid<F>(fields: seq<F>, schema: F -> FieldSchema, st: F -> Value) {
    forall i :: 0 <= i < |fields| ==> Accepts(schema(fields[i]), st(fields[i]))
  }

  /** The fields with a message, in field order, each with the message recorded for it. */
  function ErrorList<F>(fields: seq<F>, schema: F -> FieldSchema, st: F -> Value): (r: seq<(F, Message)>)
    ensures r == [] <==> IsValid(fields, schema, st)
  {
    if fields == [] then []
    else
      var rest := ErrorList(fields[1..], schema, st);
      assert forall i :: 1 <= i < |fields| ==> fields[1..][i - 1] == fields[i];
      match FirstIssue(schema(fields[0]), st(fields[0]))
      case None => rest
      case Some(m) => [(fields[0], m)] + rest
  }

  /** Every entry of the list is a listed field with the message recorded for it. */
  lemma {:induction false} ErrorListSound<F>(fields: seq<F>, schema: F -> FieldSchema, st: F -> Value)
    ensures forall e :: e in ErrorList(fields, schema, st) ==>
              e.0 in fields && FirstIssue(schema(e.0), st(e.0)) == Some(e.1)
  {
    if fields != [] {
      ErrorListSound(fields[1..], schema, st);
    }
  }

  /** Every rejected field has an entry in the list. */
  lemma {:induction false} ErrorListComplete<F>(fields: seq<F>, schema: F -> FieldSchema, st: F -> Value, i: nat)
    requires i < |fields| && !Accepts(schema(fields[i]), st(fields[i]))
    ensures exists e :: e in ErrorList(fields, schema, st) && e.0 == fields[i]
  {
    var rest := ErrorList(fields[1..], schema, st);
    if i == 0 {
      var m := FirstIssue(schema(fields[0]), st(fields[0])).value;
      assert (fields[0], m) in ErrorList(fields, schema, st);
    } else {
      assert fields[1..][i - 1] == fields[i];
      ErrorListComplete(fields[1..], schema, st, i - 1);
      var e :| e in rest && e.0 == fields[i];
      assert e in ErrorList(fields, schema, st);
    }
  }

  /** The data zod hands to the submit handler once the form is valid. */
  function ParsedState<F>(schema: F -> FieldSchema, st: F -> Value): F -> Value {
    n => Supplied(schema(n), st(n))
  }

  // Readers of parsed values for the handlers' typed data. A valid form only
  // yields values of the declared kind; the fallbacks are never reached there.

  function TextOf(v: Value): string {
    if v.Str? then v.s else ""
  }

  function OptTextOf(v: Value): Option<string> {
    if v.Str? then Some(v.s) else None
  }

  function NumberOf(v: Value): real {
    if v.Num? && v.n.Finite? then v.n.value else 0.0
  }

  function FlagOf(v: Value): bool {
    v.Bool? && v.b
  }

  /** On a valid form, every listed field is accepted by its schema. */
  lemma ValidAccepts<F>(fields: seq<F>, schema: F -> FieldSchema, st: F -> Value, n: F)
    requires IsValid(fields, schema, st) && n in fields
    ensures Accepts(schema(n), st(n))
  {
    var i :| 0 <= i < |fields| && fields[i] == n;
  }

  /** On a valid form, a listed required string field reaches the handler as typed. */
  lemma ValidText<F>(fields: seq<F>, schema: F -> FieldSchema, st: F -> Value, n: F)
    requires IsValid(fields, schema, st) && n in fields
    requires schema(n).kind == StringKind && schema(n).presence.Required?
    ensures st(n) == Str(TextOf(ParsedState(schema, st)(n)))
  {
    ValidAccepts(fields, schema, st, n);
    RequiredStringParsed(schema(n), st(n));
  }

  /** A valid required string field holds a string, and the parse passes it on as is. */
  lemma RequiredStringParsed(f: FieldSchema, v: Value)
    requires f.kind == StringKind && f.presence.Required?
    requires Accepts(f, v)
    ensures v.Str? && Supplied(f, v) == v
  {
  }
}

=== FILE: sinistro_form.dfy ===
/**
 * The claim-registration form: `registerSinistroSchema`, the parsed data, the
 * `sinistros` payload `handleRegisterSinistro` posts, and what follows the post.
 */
module SinistroForm {
  import opened Wrappers
  import opened Numbers
  import opened PickerKeys
  import opened Schema
  import opened Submission

  datatype Field =
    | Apolice | Cidade | DanosVeiculos | DanosObjectos | Ferimentos | Data | Descricao
    | Rua | Morada | Tomador | TomadorVeiculo | ObservacoesSegurado | ObservacoesTomador

  /** The fields in declaration order. */
  const Fields: seq<Field> := [
    Apolice, Cidade, DanosVeiculos, DanosObjectos, Ferimentos, Data, Descricao,
    Rua, Morada, Tomador, TomadorVeiculo, ObservacoesSegurado, ObservacoesTomador]

  const Obligatory := Custom("Campo obrigatório")

  /** `registerSinistroSchema`, field by field. */
  function Rule(n: Field): FieldSchema {
    match n
    case Cidade => FieldSchema(StringKind, Required(ZodDefault), ZodDefault, [NonEmpty(Obligatory)])
    case Descricao | Rua | Morada => FieldSchema(StringKind, Required(ZodDefault), ZodDefault, [NonEmpty(ZodDefault)])
    case DanosVeiculos | DanosObjectos | Ferimentos => FieldSchema(BooleanKind, Defaulted(Bool(false)), ZodDefault, [])
    case Apolice | Data | Tomador | TomadorVeiculo | ObservacoesSegurado | ObservacoesTomador =>
      FieldSchema(StringKind, Required(ZodDefault), ZodDefault, [])
  }

  /** `RegisterSinistroData`: the parsed form data. */
  datatype SinistroData = SinistroData(
    apolice: string, cidade: string, danosVeiculos: bool, danosObjectos: bool, ferimentos: bool,
    data: string, descricao: string, rua: string, morada: string, tomador: string,
    tomadorVeiculo: string, observacoesSegurado: string, observacoesTomador: string)

  function DataOf(p: Field -> Value): SinistroData {
    SinistroData(
      TextOf(p(Apolice)), TextOf(p(Cidade)), FlagOf(p(DanosVeiculos)), FlagOf(p(DanosObjectos)),
      FlagOf(p(Ferimentos)), TextOf(p(Data)), TextOf(p(Descricao)), TextOf(p(Rua)), TextOf(p(Morada)),
      TextOf(p(Tomador)), TextOf(p(TomadorVeiculo)), TextOf(p(ObservacoesSegurado)),
      TextOf(p(ObservacoesTomador)))
  }

  /** The request body, `{ sinistros: { ...data, <overrides> } }`. */
  datatype SinistroRecord = SinistroRecord(
    apolice: JsNum, cidade: JsNum, danosMateriaisVeiculos: int, danosMateriaisObjectos: int,
    ferimentos: int, data: string, descricao: string, rua: string, morada: string,
    tomador: JsNum, tomadorVeiculo: JsNum, observacoesSegurado: string, observacoesTomador: string)
  datatype SinistroPayload = SinistroPayload(sinistros: SinistroRecord)

  /** Injuries are sent as 1 (yes) or 0 (no). */
  function InjuryCode(b: bool): (r: int)
    ensures r in {0, 1} && (r == 1 <==> b)
  {
    if b then 1 else 0
  }

  /** Material damage is sent as 1 (yes) or 2 (no). */
  function DamageCode(b: bool): (r: int)
    ensures r in {1, 2} && (r == 1 <==> b)
  {
    if b then 1 else 2
  }

  /** The spread of the data with the decoded ids and the flag codes laid over it. */
  function Transform(d: SinistroData): (r: SinistroPayload)
    ensures r.sinistros.ferimentos in {0, 1}
    ensures r.sinistros.danosMateriaisVeiculos in {1, 2} && r.sinistros.danosMateriaisObjectos in {1, 2}
  {
    SinistroPayload(SinistroRecord(
      DecodeKey(d.apolice), DecodeKey(d.cidade), DamageCode(d.danosVeiculos), DamageCode(d.danosObjectos),
      InjuryCode(d.ferimentos), d.data, d.descricao, d.rua, d.morada,
      Number(d.tomador), DecodeKey(d.tomadorVeiculo), d.observacoesSegurado, d.observacoesTomador))
  }

  function ParsedData(st: Field -> Value): SinistroData {
    DataOf(ParsedState(Rule, st))
  }

  /** Pressing "Registar Sinistro": the field messages recorded, or the one payload posted. */
  function SubmitSinistro(st: Field -> Value): (r: Step<Field, SinistroPayload>)
    ensures r.Post? <==> IsValid(Fields, Rule, st)
    ensures r.Post? ==> r.payload == Transform(ParsedData(st))
  {
    Submit(Fields, Rule, st, p => Transform(DataOf(p)))
  }

  /**
   * The submit button is enabled exactly when the form is valid; unlike the
   * other two forms it is not disabled while a post is in flight.
   */
  function SubmitEnabled(st: Field -> Value, submitting: bool): (r: bool)
    ensures r <==> SubmitSinistro(st).Post?
  {
    IsValid(Fields, Rule, st)
  }

  /**
   * After the post: status "200" shows the success message and goes to
   * `/sinistros`; any other status is shown as the error text; a thrown error
   * shows 'Não foi possível Registar o sinistro'.
   */
  function SinistroOutcome(r: Response): (o: Outcome)
    ensures r == Responded("200") ==> o == Outcome(SuccessToast("Sinistro registrado com sucesso"), [Navigate("/sinistros")])
    ensures r.Responded? && r.status != "200" ==> o == Outcome(ErrorToast(r.status), []) && !Navigates(o)
    ensures r.Threw? ==> o == Outcome(ErrorToast("Não foi possível Registar o sinistro"), []) && !Navigates(o)
  {
    StatusOutcome("Sinistro registrado com sucesso", "/sinistros", "Não foi possível Registar o sinistro", r)
  }

  // ---------------------------------------------------------------------------
  // Properties
  // ---------------------------------------------------------------------------

  lemma ListedField(n: Field)
    ensures n in Fields
  {
    match n
    case Apolice => assert Fields[0] == n;
    case Cidade => assert Fields[1] == n;
    case DanosVeiculos => assert Fields[2] == n;
    case DanosObjectos => assert Fields[3] == n;
    case Ferimentos => assert Fields[4] == n;
    case Data => assert Fields[5] == n;
    case Descricao => assert Fields[6] == n;
    case Rua => assert Fields[7] == n;
    case Morada => assert Fields[8] == n;
    case Tomador => assert Fields[9] == n;
    case TomadorVeiculo => assert Fields[10] == n;
    case ObservacoesSegurado => assert Fields[11] == n;
    case ObservacoesTomador => assert Fields[12] == n;
  }

  /** On a valid form every field is accepted by its rule (`Schema.ValidAccepts` on this form's fields). */
  lemma FieldAccepted(st: Field -> Value, n: Field)
    requires IsValid(Fields, Rule, st)
    ensures Accepts(Rule(n), st(n))
  {
    ListedField(n);
    ValidAccepts(Fields, Rule, st, n);
  }

  /** A required text field reaches the handler as typed (`Schema.ValidText` on this form's fields). */
  lemma FieldText(st: Field -> Value, n: Field)
    requires IsValid(Fields, Rule, st)
    requires Rule(n).kind == StringKind
    ensures st(n) == Str(TextOf(ParsedState(Rule, st)(n)))
  {
    ListedField(n);
    ValidText(Fields, Rule, st, n);
  }

  lemma ValidFlag(st: Field -> Value, n: Field)
    requires IsValid(Fields, Rule, st)
    requires Rule(n).kind == BooleanKind
    ensures FlagOf(ParsedState(Rule, st)(n)) <==> st(n) == Bool(true)
  {
    FieldAccepted(st, n);
  }

  /**
   * `cidade` rejects `""` with 'Campo obrigatório'; `descricao`, `rua` and
   * `morada` reject it with zod's own message; all accept any non-empty text.
   */
  lemma RequiredTextRules(n: Field, s: string)
    requires n in {Cidade, Descricao, Rua, Morada}
    ensures FirstIssue(Rule(n), Str("")) == Some(if n == Cidade then Obligatory else ZodDefault)
    ensures Accepts(Rule(n), Str(s)) <==> |s| >= 1
  {
  }

  /** On a valid form the handler receives the strings as typed and each flag as set (false when unset). */
  lemma ParsedDataFaithful(st: Field -> Value)
    requires IsValid(Fields, Rule, st)
    ensures var d := ParsedData(st);
      && st(Apolice) == Str(d.apolice) && st(Cidade) == Str(d.cidade) && st(Data) == Str(d.data)
      && st(Descricao) == Str(d.descricao) && st(Rua) == Str(d.rua) && st(Morada) == Str(d.morada)
      && st(Tomador) == Str(d.tomador) && st(TomadorVeiculo) == Str(d.tomadorVeiculo)
      && st(ObservacoesSegurado) == Str(d.observacoesSegurado)
      && st(ObservacoesTomador) == Str(d.observacoesTomador)
      && (d.danosVeiculos <==> st(DanosVeiculos) == Bool(true))
      && (d.danosObjectos <==> st(DanosObjectos) == Bool(true))
      && (d.ferimentos <==> st(Ferimentos) == Bool(true))
  {
    FieldText(st, Apolice); FieldText(st, Cidade); FieldText(st, Data); FieldText(st, Descricao);
    FieldText(st, Rua); FieldText(st, Morada); FieldText(st, Tomador); FieldText(st, TomadorVeiculo);
    FieldText(st, ObservacoesSegurado); FieldText(st, ObservacoesTomador);
    ValidFlag(st, DanosVeiculos); ValidFlag(st, DanosObjectos); ValidFlag(st, Ferimentos);
  }

  /**
   * The picked policy, city and vehicle come back as their ids from their
   * composite keys, and the client from its `ID.toString()` value.
   */
  lemma IdsDecoded(st: Field -> Value, policy: Policy, city: City, vehicle: Vehicle, client: nat)
    requires IsValid(Fields, Rule, st)
    requires st(Apolice) == Str(PolicyKey(policy))
    requires st(Cidade) == Str(CityKey(city))
    requires st(TomadorVeiculo) == Str(VehicleKey(vehicle))
    requires st(Tomador) == Str(SelectValue(client))
    ensures SubmitSinistro(st).Post?
    ensures var r := SubmitSinistro(st).payload.sinistros;
      && r.apolice == Finite(policy.id as real)
      && r.cidade == Finite(city.id as real)
      && r.tomadorVeiculo == Finite(vehicle.id as real)
      && r.tomador == Finite(client as real)
  {
    ParsedDataFaithful(st);
    DecodePolicyKey(policy);
    DecodeCityKey(city);
    DecodeVehicleKey(vehicle);
    SelectRoundTrip(client);
  }

  /**
   * The three check-boxes are sent as codes: injuries as 1 when ticked and 0
   * otherwise, each kind of material damage as 1 when ticked and 2 otherwise;
   * an untouched box counts as not ticked.
   */
  lemma FlagCodes(st: Field -> Value)
    requires IsValid(Fields, Rule, st)
    ensures SubmitSinistro(st).Post?
    ensures var r := SubmitSinistro(st).payload.sinistros;
      && r.ferimentos in {0, 1} && (r.ferimentos == 1 <==> st(Ferimentos) == Bool(true))
      && r.danosMateriaisVeiculos in {1, 2} && (r.danosMateriaisVeiculos == 1 <==> st(DanosVeiculos) == Bool(true))
      && r.danosMateriaisObjectos in {1, 2} && (r.danosMateriaisObjectos == 1 <==> st(DanosObjectos) == Bool(true))
  {
    ParsedDataFaithful(st);
  }

  /** The fields the handler does not override reach the payload as typed. */
  lemma PassThrough(st: Field -> Value)
    requires IsValid(Fields, Rule, st)
    ensures SubmitSinistro(st).Post?
    ensures var r := SubmitSinistro(st).payload.sinistros;
      && st(Data) == Str(r.data) && st(Descricao) == Str(r.descricao)
      && st(Rua) == Str(r.rua) && st(Morada) == Str(r.morada)
      && st(ObservacoesSegurado) == Str(r.observacoesSegurado)
      && st(ObservacoesTomador) == Str(r.observacoesTomador)
  {
    ParsedDataFaithful(st);
  }
}

=== FILE: submission.dfy ===
/**
 * The submit pipeline shared by the three forms: validate, then either record
 * the field messages or post one payload built from the parsed data; then
 * turn the response of the post into a notification and follow-up effects.
 * The HTTP client, the toasts and the router are outside the model: a response
 * is an input, and what the handler would do with them is returned as data.
 */
module Submission {
  import opened Wrappers
  import opened Schema

  /** One submit attempt: blocked with the recorded field messages, or a single post. */
  datatype Step<F, P> = Blocked(errors: seq<(F, Message)>) | Post(payload: P)

  /**
   * `handleSubmit(handler)`: the handler, here `transform`, runs only on a
   * valid form and receives the data zod parsed from it.
   */
  function Submit<F(==), P>(fields: seq<F>, schema: F -> FieldSchema, st: F -> Value,
                            transform: (F -> Value) -> P): (r: Step<F, P>)
    ensures r.Post? <==> IsValid(fields, schema, st)
    ensures r.Blocked? ==> r.errors != []
    ensures r.Blocked? ==> forall e :: e in r.errors ==> e.0 in fields && FirstIssue(schema(e.0), st(e.0)) == Some(e.1)
  {
    if IsValid(fields, schema, st) then Post(transform(ParsedState(schema, st)))
    else
      ErrorListSound(fields, schema, st);
      Blocked(ErrorList(fields, schema, st))
  }

  /** How the post ended: the `status` text of the response body, or a thrown error. */
  datatype Response = Responded(status: string) | Threw

  datatype Toast = SuccessToast(text: string) | ErrorToast(text: string)

  datatype Effect =
    | CloseModal          // the caller's `onClose()`
    | ResetForm           // `reset()`
    | ReloadRoute         // `router.replace(router.asPath)`
    | Navigate(path: string)  // `router.push(path)`

  datatype Outcome = Outcome(toast: Toast, effects: seq<Effect>)

  predicate Navigates(o: Outcome) {
    exists i :: 0 <= i < |o.effects| && o.effects[i].Navigate?
  }

  /**
   * The handlers that inspect the status: `"200"` is success with a
   * navigation to `path`; any other status is shown as the error text; a
   * thrown error shows the fixed `failure` text. Nothing else happens.
   */
  function StatusOutcome(success: string, path: string, failure: string, r: Response): (o: Outcome)
    ensures o.toast.SuccessToast? <==> r == Responded("200")
    ensures o.toast.SuccessToast? ==> o.toast.text == success && o.effects == [Navigate(path)]
    ensures o.toast.ErrorToast? ==> o.effects == [] && !Navigates(o)
    ensures o.toast.ErrorToast? ==> o.toast.text == (if r.Threw? then failure else r.status)
  {
    match r
    case Responded(status) =>
      if status == "200" then Outcome(SuccessToast(success), [Navigate(path)])
      else Outcome(ErrorToast(status), [])
    case Threw => Outcome(ErrorToast(failure), [])
  }

  /** The outcome navigates exactly when the status was "200", and then to `path`. */
  lemma NavigatesIffOk(success: string, path: string, failure: string, r: Response)
    ensures Navigates(StatusOutcome(success, path, failure, r)) <==> r == Responded("200")
  {
    var o := StatusOutcome(success, path, failure, r);
    if r == Responded("200") {
      assert o.effects[0].Navigate?;
    }
  }
}

=== FILE: text.dfy ===
/**
 * String primitives the forms rely on: ASCII case mapping (`toLowerCase`,
 * `toUpperCase`), JavaScript's `split` on a one-character separator, and the
 * decimal rendering of a non-negative integer (`n.toString()`, `${n}`).
 */
module Text {

  predicate IsDigit(c: char) {
    '0' <= c <= '9'
  }

  predicate AllDigits(s: string) {
    forall i :: 0 <= i < |s| ==> IsDigit(s[i])
  }

  /** A digit string without superfluous leading zeros ("0" itself is canonical). */
  predicate IsCanonical(s: string) {
    |s| >= 1 && AllDigits(s) && (s[0] == '0' ==> |s| == 1)
  }

  // ---------------------------------------------------------------------------
  // Case mapping (ASCII letters only)
  // ---------------------------------------------------------------------------

  function LowerChar(c: char): char {
    if 'A' <= c <= 'Z' then (c as int + 32) as char else c
  }

  function UpperChar(c: char): char {
    if 'a' <= c <= 'z' then (c as int - 32) as char else c
  }

  predicate IsLetter(c: char) {
    'a' <= c <= 'z' || 'A' <= c <= 'Z'
  }

  /** `s.toLowerCase()`: every character mapped, so no upper-case letter remains. */
  function Lower(s: string): (r: string)
    ensures |r| == |s|
    ensures forall i :: 0 <= i < |s| ==> r[i] == LowerChar(s[i])
    ensures forall i :: 0 <= i < |r| ==> !('A' <= r[i] <= 'Z')
  {
    seq(|s|, i requires 0 <= i < |s| => LowerChar(s[i]))
  }

  /** `s.toUpperCase()`: every character mapped, so no lower-case letter remains. */
  function Upper(s: string): (r: string)
    ensures |r| == |s|
    ensures forall i :: 0 <= i < |s| ==> r[i] == UpperChar(s[i])
    ensures forall i :: 0 <= i < |r| ==> !('a' <= r[i] <= 'z')
  {
    seq(|s|, i requires 0 <= i < |s| => UpperChar(s[i]))
  }

  /** Lower-casing forgets the case a string was written in. */
  lemma LowerForgetsCase(s: string)
    ensures Lower(Lower(s)) == Lower(s)
    ensures Lower(Upper(s)) == Lower(s)
  {
  }

  /** Upper-casing forgets the case a string was written in. */
  lemma UpperForgetsCase(s: string)
    ensures Upper(Upper(s)) == Upper(s)
    ensures Upper(Lower(s)) == Upper(s)
  {
  }

  /** Upper- and lower-casing a string agree exactly when it has no letter. */
  lemma CaseAgreesIffNoLetter(s: string)
    ensures Upper(s) == Lower(s) <==> forall i :: 0 <= i < |s| ==> !IsLetter(s[i])
  {
  }

  // ---------------------------------------------------------------------------
  // split / join on a one-character separator
  // ---------------------------------------------------------------------------

  /**
   * `s.split(sep)`: the maximal separator-free runs of `s`, in order. There is
   * always at least one part (`"".split(sep)` is `[""]`), the first part is a
   * prefix of `s`, and no part contains the separator.
   */
  function Split(s: string, sep: char): (parts: seq<string>)
    ensures |parts| >= 1
    ensures parts[0] <= s
    ensures forall i :: 0 <= i < |parts| ==> sep !in parts[i]
    decreases |s|
  {
    if |s| == 0 then [""]
    else
      var rest := Split(s[1..], sep);
      if s[0] == sep then [""] + rest
      else [[s[0]] + rest[0]] + rest[1..]
  }

  /** `parts.join(sep)`. */
  function Join(parts: seq<string>, sep: char): string
    requires |parts| >= 1
    decreases |parts|
  {
    if |parts| == 1 then parts[0] else parts[0] + [sep] + Join(parts[1..], sep)
  }

  /** A string free of the separator splits into itself alone. */
  lemma {:induction false} SplitWithoutSeparator(s: string, sep: char)
    requires sep !in s
    ensures Split(s, sep) == [s]
    decreases |s|
  {
    if |s| > 0 {
      SplitWithoutSeparator(s[1..], sep);
      assert [s[0]] + s[1..] == s;
    }
  }

  /** Splitting at the first separator: the part before it comes out whole. */
  lemma {:induction false} SplitAtFirst(p: string, sep: char, q: string)
    requires sep !in p
    ensures Split(p + [sep] + q, sep) == [p] + Split(q, sep)
    decreases |p|
  {
    var s := p + [sep] + q;
    if |p| == 0 {
      assert s[1..] == q;
    } else {
      assert s[1..] == p[1..] + [sep] + q;
      SplitAtFirst(p[1..], sep, q);
      assert [p[0]] + p[1..] == p;
    }
  }

  /** Splitting undoes joining, when no part contains the separator. */
  lemma {:induction false} SplitJoin(parts: seq<string>, sep: char)
    requires |parts| >= 1
    requires forall i :: 0 <= i < |parts| ==> sep !in parts[i]
    ensures Split(Join(parts, sep), sep) == parts
    decreases |parts|
  {
    if |parts| == 1 {
      SplitWithoutSeparator(parts[0], sep);
    } else {
      SplitJoin(parts[1..], sep);
      SplitAtFirst(parts[0], sep, Join(parts[1..], sep));
      assert [parts[0]] + parts[1..] == parts;
    }
  }

  /** Joining undoes splitting: no character of `s` is lost or added. */
  lemma {:induction false} JoinSplit(s: string, sep: char)
    ensures Join(Split(s, sep), sep) == s
    decreases |s|
  {
    if |s| > 0 {
      var rest := Split(s[1..], sep);
      JoinSplit(s[1..], sep);
      if s[0] == sep {
        assert ([""] + rest)[1..] == rest;
      } else {
        var parts := [[s[0]] + rest[0]] + rest[1..];
        assert parts[1..] == rest[1..];
        if |rest| > 1 {
          assert Join(rest, sep) == rest[0] + [sep] + Join(rest[1..], sep);
        }
        assert [s[0]] + s[1..] == s;
      }
    }
  }

  // ---------------------------------------------------------------------------
  // Decimal rendering and reading of non-negative integers
  // ---------------------------------------------------------------------------

  function DigitChar(d: nat): (c: char)
    requires d < 10
    ensures IsDigit(c)
  {
    ('0' as int + d) as char
  }

  function DigitValue(c: char): nat
    requires IsDigit(c)
  {
    c as int - '0' as int
  }

  /** `n.toString()`: the canonical decimal digits of `n`. */
  function NatToString(n: nat): (s: string)
    ensures IsCanonical(s)
    decreases n
  {
    if n < 10 then [DigitChar(n)] else NatToString(n / 10) + [DigitChar(n % 10)]
  }

  /** The number a digit string denotes (leading zeros allowed; `""` denotes 0). */
  function DigitsValue(s: string): nat
    requires AllDigits(s)
    decreases |s|
  {
    if |s| == 0 then 0 else DigitsValue(s[..|s| - 1]) * 10 + DigitValue(s[|s| - 1])
  }

  /** Reading back a rendered integer gives the integer. */
  lemma {:induction false} DigitsValueOfNatToString(n: nat)
    ensures DigitsValue(NatToString(n)) == n
    decreases n
  {
    if n >= 10 {
      var s := NatToString(n);
      DigitsValueOfNatToString(n / 10);
      assert s[..|s| - 1] == NatToString(n / 10);
    }
  }

  /** A digit string whose leading digit is not zero denotes a positive number. */
  lemma {:induction false} LeadingDigitPositive(s: string)
    requires |s| >= 1 && AllDigits(s) && s[0] != '0'
    ensures DigitsValue(s) >= 1
    decreases |s|
  {
    if |s| > 1 {
      LeadingDigitPositive(s[..|s| - 1]);
    }
  }

  /** Rendering the value of a canonical digit string gives the string back. */
  lemma {:induction false} NatToStringOfDigitsValue(s: string)
    requires IsCanonical(s)
    ensures NatToString(DigitsValue(s)) == s
    decreases |s|
  {
    if |s| > 1 {
      var init := s[..|s| - 1];
      LeadingDigitPositive(init);
      NatToStringOfDigitsValue(init);
      assert init + [s[|s| - 1]] == s;
    }
  }

  /** Rendering is injective: distinct integers have distinct decimal forms. */
  lemma NatToStringInjective(a: nat, b: nat)
    requires NatToString(a) == NatToString(b)
    ensures a == b
  {
    DigitsValueOfNatToString(a);
    DigitsValueOfNatToString(b);
  }
}

=== FILE: wrappers.dfy ===
/** Optional values, used wherever the forms may have nothing to show or send. */
module Wrappers {

  datatype Option<+T> = None | Some(value: T)
}
